=== FILE: README.md ===
# CPU scheduling simulator: a Dafny model

This project models the scheduling core of a small CPU scheduling simulator.
The simulator takes a list of processes. Each process has an id, an arrival
time, a CPU burst and a priority. It runs one of four policies over them:

- first-come, first-served (FCFS)
- shortest job first (SJF, non-preemptive)
- round robin (RR, preemptive, fixed time quantum)
- priority (non-preemptive; a lower number is a higher priority)

Each policy produces a Gantt chart and records each process's finish,
turnaround and waiting times. The shared aggregation then adds up the integer
totals.

Files:

- `types.dfy` (module `Types`) defines the process and Gantt entry records and
  the timeline that the loops append to. A Gantt entry names its process by
  position (`Slot = Idle | Ran(index)`) in the list the scheduler returns.
  `Label` maps a slot back to `"IDLE"` or the process id. It also holds the
  chart facts shared by all policies: contiguity, idle plus busy time equals
  the clock, and per-process run time and last end.
- `arrival_order.dfy` (module `ArrivalOrder`) is the stable sort by arrival
  time that FCFS and RR apply. It is computed on positions, so the result says
  which input process lands in which slot.
- `metrics.dfy` (module `Metrics`) holds the integer part of the result
  record: the pass-through fields and the turnaround and waiting sums.
- `fcfs.dfy` (module `Fcfs`) is FCFS.
- `non_preemptive.dfy` (module `NonPreemptive`) is SJF and priority. Both are
  one loop parameterised by the selection key.
- `round_robin.dfy` (module `RoundRobin`) is RR. It models the ready queue of
  positions, the admission counter and the completion counter explicitly.

Each loop is a recursive function over an immutable state. Its invariant is a
ghost predicate, and a lemma carries that invariant through every iteration.
Besides its computed results, each scheduler states a declarative rule that
every chart entry follows:

- `Fcfs.FinishedInTurn`: each process starts when it has arrived and the
  previous one has finished.
- `NonPreemptive.Justified`: each entry runs the waiting process that comes
  first by the policy's key, or idles until the earliest pending arrival.
- `RoundRobin.Turn`: each slice is the quantum or the remaining time,
  whichever is less, and no process gets its first turn before the processes
  ahead of it in arrival order.

Integers are unbounded in the model, as they are in the Python program.

## Model

| member | source | states |
|---|---|---|
| Types.NewProcess | process_scheduling_simulator/process_scheduling.py:11-19 | a new process keeps the given id, arrival, burst and priority, starts with remaining time = burst and zero finish, turnaround and waiting, and is runnable exactly when its burst is at least 1 |
| Types.Copy | process_scheduling_simulator/process_scheduling.py:21-25 | a copy keeps the id, arrival, burst, priority and remaining time of the original and has zero finish, turnaround and waiting |
| Types.Label | process_scheduling_simulator/process_scheduling.py:93-99 | a run entry prints its process's id; an entry prints "IDLE" exactly when it is idle or its process's id is "IDLE" |
| Types.Complete | process_scheduling_simulator/process_scheduling.py:100-102 | the completed record has finish = the clock, turnaround = finish − arrival, waiting = turnaround − burst; id, arrival, burst, priority and remaining time are unchanged |
| Types.IdleUntil | process_scheduling_simulator/process_scheduling.py:93-96 | appends one IDLE entry from the clock to `t`; the clock becomes `t` and idle time grows by the gap; which processes ran, and how long and until when each one ran, are unchanged |
| Types.Run | process_scheduling_simulator/process_scheduling.py:98-99 | appends one entry for process `i` from the clock; the clock advances by the run length; only `i`'s run time grows, and `i`'s last end becomes the new clock |
| Types.TiledIsContiguous | process_scheduling_simulator/process_scheduling.py:88-99 | a chart tiles a span as built (each appended entry starts at the clock the previous one left) exactly when it is contiguous by position: the first entry starts at the span's start, each entry starts where the previous ended, and the last ends at the span's end |
| Types.TiledSpan | process_scheduling_simulator/process_scheduling.py:93-99 | for such a chart, idle time plus busy time equals the final clock |
| Types.BusyIsTotal | process_scheduling_simulator/process_scheduling.py:98-99 | when every process's entries add up to `f` of that process, busy time is the sum of `f` over all processes |
| Types.RunTimeFits | process_scheduling_simulator/process_scheduling.py:173-175 | in a contiguous chart of non-negative entries, a process whose entries all start at or after `a` ran for at most its last end minus `a` (why RR waiting times are not negative) |
| ArrivalOrder.Order | process_scheduling_simulator/process_scheduling.py:86 | the sort's placement: a permutation of the input positions, strictly increasing by (arrival, input position) |
| ArrivalOrder.InsertKeepsOrder | process_scheduling_simulator/process_scheduling.py:86 | inserting a new position into an ordered list of positions keeps it ordered |
| ArrivalOrder.SortByArrival | process_scheduling_simulator/process_scheduling.py:86 | the result has the input's length and non-decreasing arrivals; slot `k` holds input process `Order[k]`; equal arrivals keep their input order (stability) |
| Metrics.SumsOfIdentities | process_scheduling_simulator/process_scheduling.py:210-211 | when every record satisfies the completion identities, total turnaround = total finish − total arrival and total waiting = total turnaround − total burst |
| Metrics.GetResults | process_scheduling_simulator/process_scheduling.py:208-221 | the processes, chart, total time and idle time pass through unchanged; for completed records, total turnaround = Σfinish − Σarrival and total waiting = total turnaround − Σburst; no negative waiting time means a non-negative total |
| Fcfs.Step | process_scheduling_simulator/process_scheduling.py:93-102 | one iteration: if the process has not arrived yet, the chart gains one IDLE entry up to its arrival and idle time grows by the gap; then it gains one entry for the process over its whole burst; the clock ends at max(clock, arrival) + burst; only that process's record changes, to its completed form |
| Fcfs.StepKeeps | process_scheduling_simulator/process_scheduling.py:92-102 | one iteration of the FCFS loop moves the invariant from `k` handled processes to `k + 1` |
| Fcfs.RunFirstHandles | process_scheduling_simulator/process_scheduling.py:92-102 | after the first `k` iterations, the first `k` processes each ran once, in order, for their full burst, starting at max(previous finish, arrival); the rest are untouched |
| Fcfs.Schedule | process_scheduling_simulator/process_scheduling.py:84-104 | the result is the input stably sorted by arrival, with descriptors and remaining times unchanged; the chart is contiguous from 0 to the total time, and its IDLE gaps are positive; each IDLE entry is immediately followed by a run entry and ends at that process's arrival; total time = Σburst + idle time; idle time is the sum of the gaps between arrivals and previous finishes; each process runs exactly once for its burst and finishes at max(previous finish, arrival) + burst; total turnaround = Σfinish − Σarrival, total waiting = total turnaround − Σburst, and total waiting ≥ 0 |
| NonPreemptive.Best | process_scheduling_simulator/process_scheduling.py:114-123 | None exactly when no process below `k` is available (arrived and not completed); otherwise it returns an available process whose key no available process beats, strictly before every available process earlier in the list (first minimum wins) |
| NonPreemptive.EarliestPending | process_scheduling_simulator/process_scheduling.py:117 | None exactly when all are completed; otherwise a pending process whose arrival no pending process beats |
| NonPreemptive.IdleStep | process_scheduling_simulator/process_scheduling.py:116-121 | the chart gains one IDLE entry from the clock to `t`; the clock becomes `t` and idle time grows by the gap; records and completion flags are unchanged |
| NonPreemptive.RunStep | process_scheduling_simulator/process_scheduling.py:123-130 | the chart gains one entry for process `i` over its whole burst; idle time is unchanged; `i`'s record becomes its completed form and `i` is marked completed; every other record and flag is unchanged; the counter stays equal to the number of flags set |
| NonPreemptive.Loop | process_scheduling_simulator/process_scheduling.py:113-130 | the loop stops with every process marked completed and the counter equal to the number of processes; processes already completed on entry keep their records |
| NonPreemptive.IdleMakesAvailable | process_scheduling_simulator/process_scheduling.py:116-121 | after idling to a pending process's arrival, selection finds a process, so the loop never idles twice in a row |
| NonPreemptive.JustifiedAt | process_scheduling_simulator/process_scheduling.py:113-130 | an inductively justified chart has every entry justified by the entries before it |
| NonPreemptive.LoopKeeps | process_scheduling_simulator/process_scheduling.py:113-130 | the loop keeps its invariant and stops with every process completed |
| NonPreemptive.Schedule | process_scheduling_simulator/process_scheduling.py:106-132 | processes come back in input order with unchanged descriptors; the chart is contiguous from 0; total time = Σburst + idle time; each process runs exactly once for its whole burst; records satisfy the identities with finish = its entry's end and waiting ≥ 0; every entry follows the selection rule (`Justified`); total turnaround = Σfinish − Σarrival, total waiting = total turnaround − Σburst, and total waiting ≥ 0 |
| NonPreemptive.Sjf | process_scheduling_simulator/process_scheduling.py:106-132 | each run entry's process had arrived, and no other process not yet run that had arrived has a shorter burst, or an equal burst and an earlier arrival |
| NonPreemptive.Priority | process_scheduling_simulator/process_scheduling.py:180-206 | each run entry's process had arrived, and no other process not yet run that had arrived has a lower priority number, or an equal one and an earlier arrival |
| RoundRobin.Copies | process_scheduling_simulator/process_scheduling.py:136 | one copy per input process, in input order, each as `Types.Copy` makes it |
| RoundRobin.Initial | process_scheduling_simulator/process_scheduling.py:146-148 | before the loop the chart is empty and the clock is 0; only the first process can be admitted, and it is exactly when it arrives at time 0 or earlier |
| RoundRobin.Enter | process_scheduling_simulator/process_scheduling.py:151-157 | with an empty queue: the chart gains one IDLE entry from the clock to the next process's arrival; the clock becomes that arrival; idle time grows by the gap; that process is queued and admitted |
| RoundRobin.Slice | process_scheduling_simulator/process_scheduling.py:159-176 | one turn: the head runs for min(quantum, its remaining time) from the clock, and its remaining time drops by that much; the processes that arrived by the new clock are admitted in list order and the first one left out has not arrived; the queue becomes the rest of the old queue, then the admitted ones, then the head if it has time left; if it has time left, nothing else about its record changes; otherwise the head is completed at the new clock and the counter grows by one; no other record changes |
| RoundRobin.Admit | process_scheduling_simulator/process_scheduling.py:166-168 | appends the next processes in list order while they have arrived by the clock; every admitted process has arrived, and the first one left out has not |
| RoundRobin.SliceShrinks | process_scheduling_simulator/process_scheduling.py:159-176 | a turn keeps the queue well formed (queued + completed = admitted) and strictly decreases the work left, so the loop ends for every quantum ≥ 1 |
| RoundRobin.EnterKeeps | process_scheduling_simulator/process_scheduling.py:151-157 | when the queue is empty and some process is not completed, one is still to be admitted, so the read at line 152 is in range |
| RoundRobin.SliceFifo | process_scheduling_simulator/process_scheduling.py:166-171 | a turn keeps the queue in first-come order: every process ahead of a queued one in the sorted list has run or is queued before it |
| RoundRobin.Loop | process_scheduling_simulator/process_scheduling.py:150-176 | the loop stops with every process admitted and completed and the queue empty, keeping the number of processes |
| RoundRobin.LoopKeeps | process_scheduling_simulator/process_scheduling.py:150-176 | the loop keeps its invariant and stops with every process completed |
| RoundRobin.Rr | process_scheduling_simulator/process_scheduling.py:134-178 | the result is copies of the input stably sorted by arrival, all with remaining time 0; the chart is contiguous from 0 with positive IDLE gaps; total time = Σ(initial remaining) + idle time; each process runs for its initial remaining time in all; finish = end of its last slice; the turnaround and waiting sums agree with the records |
| RoundRobin.RrTurns | process_scheduling_simulator/process_scheduling.py:150-176 | every chart entry follows the round-robin rule: a slice is min(quantum, time left) for a process not yet finished whose predecessors in arrival order have had their first turn; an IDLE entry starts after every process that ran has finished and ends at the earliest arrival among the rest |
| RoundRobin.RrArrivals | process_scheduling_simulator/process_scheduling.py:146-168 | if no input process has negative remaining time, no slice starts before its process arrives |
| RoundRobin.RrSlices | process_scheduling_simulator/process_scheduling.py:160-164 | for processes as the constructor builds them (burst ≥ 1, remaining = burst), every slice lasts between 1 and the quantum |
| RoundRobin.RrWaiting | process_scheduling_simulator/process_scheduling.py:170-178 | for such processes, each one runs for exactly its burst, no waiting time is negative, total time = Σburst + idle time, and total waiting ≥ 0 |

## Left out

- Flask routes, `read_processes`, `print_results`, the command-line entry point and `to_dict` are left out. They are I/O and formatting around the core.
- The averages, CPU utilisation and rounding in `get_results_dict` (lines 213-224) are left out. They are floating point. The model keeps the integer sums. The busy time that utilisation divides is `Types.BusyTime`, and `Types.TiledSpan` states that it equals total time minus idle time.
- Input validation: the four scheduling functions do none. The request handler and the command-line entry point reject an empty list (lines 273-274, 343-345) before any scheduler runs, and they are left out. An empty list gives an empty chart and zero totals under every policy. A negative arrival or a non-positive burst is accepted and scheduled as written.
- Identity of list entries: the model tracks every record per list position, so one process object that appears twice in the list is treated as two processes. In the Python program, SJF and priority test membership of `completed` by object identity, and FCFS's second iteration over the shared object overwrites the first completion. The callers in the program pass a fresh copy of every process.
- In-place mutation is not modelled. FCFS sorts the caller's list in place, and FCFS, SJF and priority write completion fields into the caller's objects. The model returns the updated list instead. RR works on copies and leaves its input alone, as the code does.
- Label clash: a process whose id is the string `"IDLE"` prints like an idle entry. The model's `Slot` still tells them apart.
- RoundRobin.Rr: requires quantum ≥ 1. With a quantum of 0 or less, the code loops forever on any process with positive remaining time. The requirement also excludes inputs on which the code does finish with such a quantum: an empty list with any quantum, and a quantum of 0 when no process has positive remaining time.
- RoundRobin.Rr: does not require positive bursts, because the code accepts any. Its unconditional contract counts initial remaining time, not burst. The burst form, slices of 1 to quantum, and non-negative waiting are stated in `RoundRobin.RrWaiting` and `RoundRobin.RrSlices` for processes as the constructor builds them.
- RoundRobin.RrArrivals: is stated only when no remaining time is negative. A negative slice moves the clock backwards, so later slices can then start before their process arrives.
- RoundRobin.RrTurns: states the rotation order declaratively only for first turns (no process runs before those ahead of it in arrival order have had a turn). After that, the queue order is stated step by step by the contract of `RoundRobin.Slice`, not as a property of the whole chart.

=== FILE: arrival_order.dfy ===
/** Stable sorting of a process list by arrival time, as a list sort keyed on
    arrival time does it: equal arrivals keep their input order. The sort is
    computed on indices, so the result says which input process lands where. */
module ArrivalOrder {
  import opened Types

  /** Input position `i` goes before input position `j`: earlier arrival, or the
      same arrival and earlier in the input. */
  predicate Before(ps: seq<Process>, i: nat, j: nat)
    requires i < |ps| && j < |ps|
  {
    ps[i].arrival < ps[j].arrival || (ps[i].arrival == ps[j].arrival && i < j)
  }

  ghost predicate InRange(order: seq<nat>, n: nat) {
    forall k :: 0 <= k < |order| ==> order[k] < n
  }

  /** Positions listed in strictly increasing `Before` order. */
  ghost predicate Ordered(ps: seq<Process>, order: seq<nat>)
    requires InRange(order, |ps|)
  {
    forall a, b :: 0 <= a < b < |order| ==> Before(ps, order[a], order[b])
  }

  /** Insert position `i` into a list of positions, before the first one it
      goes before. */
  function Insert(ps: seq<Process>, order: seq<nat>, i: nat): (r: seq<nat>)
    requires i < |ps| && InRange(order, |ps|)
    ensures InRange(r, |ps|) && |r| == |order| + 1
    ensures forall x :: x in r <==> x in order || x == i
  {
    if |order| == 0 then [i]
    else if Before(ps, i, order[0]) then [i] + order
    else [order[0]] + Insert(ps, order[1..], i)
  }

  /** Inserting keeps an ordered list ordered. */
  lemma {:induction false} InsertKeepsOrder(ps: seq<Process>, order: seq<nat>, i: nat)
    requires i < |ps| && InRange(order, |ps|) && Ordered(ps, order) && i !in order
    ensures Ordered(ps, Insert(ps, order, i))
    decreases |order|
  {
    if |order| > 0 && !Before(ps, i, order[0]) {
      var rest := Insert(ps, order[1..], i);
      InsertKeepsOrder(ps, order[1..], i);
      assert forall x :: x in rest ==> Before(ps, order[0], x);
    }
  }

  /** The first `k` input positions, sorted. */
  function SortPrefix(ps: seq<Process>, k: nat): (r: seq<nat>)
    requires k <= |ps|
    ensures |r| == k && InRange(r, |ps|) && Ordered(ps, r)
    ensures forall x: nat :: x in r <==> x < k
  {
    if k == 0 then []
    else
      var sorted := SortPrefix(ps, k - 1);
      InsertKeepsOrder(ps, sorted, k - 1);
      Insert(ps, sorted, k - 1)
  }

  /** Where each slot of the sorted list comes from: a permutation of the
      input positions, in strictly increasing (arrival, input position). */
  function Order(ps: seq<Process>): (r: seq<nat>)
    ensures |r| == |ps| && InRange(r, |ps|) && Ordered(ps, r)
    ensures forall i :: 0 <= i < |ps| ==> i in r
  {
    SortPrefix(ps, |ps|)
  }

  /** Non-decreasing arrival times. */
  ghost predicate SortedByArrival(ps: seq<Process>) {
    forall a, b :: 0 <= a < b < |ps| ==> ps[a].arrival <= ps[b].arrival
  }

  /** The list after a stable sort by arrival time. */
  function SortByArrival(ps: seq<Process>): (r: seq<Process>)
    ensures |r| == |ps| && SortedByArrival(r)
    ensures forall k :: 0 <= k < |r| ==> r[k] == ps[Order(ps)[k]]
    ensures forall a, b :: 0 <= a < b < |r| && r[a].arrival == r[b].arrival ==> Order(ps)[a] < Order(ps)[b]
  {
    Pick(ps, Order(ps))
  }

  /** The processes at the listed positions. */
  function Pick(ps: seq<Process>, order: seq<nat>): (r: seq<Process>)
    requires InRange(order, |ps|)
    ensures |r| == |order| && forall k :: 0 <= k < |order| ==> r[k] == ps[order[k]]
  {
    seq(|order|, k requires 0 <= k < |order| => ps[order[k]])
  }
}

=== FILE: fcfs.dfy ===
/** First-come, first-served: stable sort by arrival, then run each process to
    completion in that order, idling first whenever the next process has not
    arrived yet. */
module Fcfs {
  import opened Types
  import opened ArrivalOrder
  import opened Metrics

  /** The clock and the process list part-way through the loop. */
  datatype State = State(tl: Timeline, ps: seq<Process>)

  /** The clock when the `k`-th process's turn comes: when the previous one
      finished, or 0 for the first. */
  function Ready(ps: seq<Process>, k: nat): int
    requires k <= |ps|
  {
    if k == 0 then 0 else ps[k - 1].finish
  }

  /** The idle time the first `k` turns should add: for each, how long the
      process arrived after its turn came, if it did. */
  function IdleGaps(ps: seq<Process>, k: nat): int
    requires k <= |ps|
  {
    if k == 0 then 0 else IdleGaps(ps, k - 1) + Max(0, ps[k - 1].arrival - Ready(ps, k - 1))
  }

  lemma {:induction false} IdleGapsFrame(ps: seq<Process>, m: nat, p: Process, k: nat)
    requires k <= m < |ps|
    ensures IdleGaps(ps[m := p], k) == IdleGaps(ps, k)
  {
    if k > 0 {
      IdleGapsFrame(ps, m, p, k - 1);
    }
  }

  /** The loop body for the `k`-th process of the sorted list. */
  function Step(s: State, k: nat): (r: State)
    requires k < |s.ps|
    ensures var p, now := s.ps[k], s.tl.now;
      && r.tl.now == Max(now, p.arrival) + p.burst
      && (now < p.arrival ==>
            && r.tl.gantt == s.tl.gantt + [GanttEntry(Idle, now, p.arrival), GanttEntry(Ran(k), p.arrival, r.tl.now)]
            && r.tl.idle == s.tl.idle + (p.arrival - now))
      && (p.arrival <= now ==>
            r.tl.gantt == s.tl.gantt + [GanttEntry(Ran(k), now, r.tl.now)] && r.tl.idle == s.tl.idle)
    ensures |r.ps| == |s.ps| && r.ps[k] == Complete(s.ps[k], r.tl.now)
    ensures forall j :: 0 <= j < |s.ps| && j != k ==> r.ps[j] == s.ps[j]
  {
    var p := s.ps[k];
    var tl := if s.tl.now < p.arrival then IdleUntil(s.tl, p.arrival) else s.tl;
    var tl' := Run(tl, k, p.burst);
    State(tl', s.ps[k := Complete(p, tl'.now)])
  }

  /** What holds once the loop has handled the first `k` processes of `ps`:
      the rest are untouched, the handled ones ran in order as one entry each
      of their full burst, starting when both they had arrived and the
      previous one had finished. */
  ghost predicate Handled(ps: seq<Process>, k: nat, s: State)
  {
    && k <= |ps| == |s.ps|
    && (forall j :: 0 <= j < |ps| ==> SameDescriptor(s.ps[j], ps[j]) && s.ps[j].remaining == ps[j].remaining)
    && (forall j :: k <= j < |ps| ==> s.ps[j] == ps[j])
    && Consistent(s.tl)
    && s.tl.now == Ready(s.ps, k) && s.tl.idle == IdleGaps(s.ps, k)
    && Runs(s.tl.gantt) == Range(0, k) && RunsWithin(s.tl.gantt, k) && IdleGapsPositive(s.tl.gantt)
    && IdleUntilArrival(ps, s.tl.gantt)
    && (forall e :: 0 <= e < |s.tl.gantt| && s.tl.gantt[e].slot.Ran? ==>
          s.tl.gantt[e].Length() == ps[s.tl.gantt[e].slot.index].burst)
    && (forall j :: 0 <= j < |ps| ==> RunTime(s.tl.gantt, j) == (if j < k then ps[j].burst else 0))
    && (forall j :: 0 <= j < k ==> Finished(ps, s, j))
  }

  /** Every IDLE entry is followed by a process entry, and lasts until that
      process arrives: a gap is filled by exactly one IDLE entry. */
  ghost predicate IdleUntilArrival(ps: seq<Process>, g: seq<GanttEntry>) {
    forall e :: 0 <= e < |g| && g[e].slot.Idle? ==>
      && e + 1 < |g| && g[e + 1].slot.Ran? && g[e + 1].slot.index < |ps|
      && g[e].end == ps[g[e + 1].slot.index].arrival
  }

  ghost predicate Finished(ps: seq<Process>, s: State, j: nat)
    requires j < |ps| == |s.ps|
  {
    && Identities(s.ps[j])
    && s.ps[j].finish == Max(Ready(s.ps, j), ps[j].arrival) + ps[j].burst
    && s.ps[j].finish == LastEnd(s.tl.gantt, j)
  }

  lemma StepChart(ps: seq<Process>, k: nat, s: State)
    requires k < |ps| && Handled(ps, k, s)
    ensures var r := Step(s, k);
      && Runs(r.tl.gantt) == Range(0, k + 1) && RunsWithin(r.tl.gantt, k + 1) && IdleGapsPositive(r.tl.gantt)
      && (forall e :: 0 <= e < |r.tl.gantt| && r.tl.gantt[e].slot.Ran? ==>
            r.tl.gantt[e].Length() == ps[r.tl.gantt[e].slot.index].burst)
  {
    StepRuns(ps, k, s);
    StepLengths(ps, k, s);
  }

  lemma StepRuns(ps: seq<Process>, k: nat, s: State)
    requires k < |s.ps| && Runs(s.tl.gantt) == Range(0, k)
    ensures Runs(Step(s, k).tl.gantt) == Range(0, k + 1)
  {
    var p := s.ps[k];
    var tl := if s.tl.now < p.arrival then IdleUntil(s.tl, p.arrival) else s.tl;
    assert Step(s, k).tl == Run(tl, k, p.burst);
    assert Range(0, k) + [k] == Range(0, k + 1);
  }

  lemma StepLengths(ps: seq<Process>, k: nat, s: State)
    requires k < |ps| && Handled(ps, k, s)
    ensures var g := Step(s, k).tl.gantt;
      && RunsWithin(g, k + 1) && IdleGapsPositive(g)
      && (forall e :: 0 <= e < |g| && g[e].slot.Ran? ==> g[e].Length() == ps[g[e].slot.index].burst)
  {
    assert s.ps[k] == ps[k];
  }

  /** An IDLE entry the step adds is followed at once by the entry of the
      process it waited for. */
  lemma StepIdle(ps: seq<Process>, k: nat, s: State)
    requires k < |ps| == |s.ps| && s.ps[k] == ps[k] && IdleUntilArrival(ps, s.tl.gantt)
    ensures IdleUntilArrival(ps, Step(s, k).tl.gantt)
  {
    var g, r := s.tl.gantt, Step(s, k).tl.gantt;
    forall e | 0 <= e < |r| && r[e].slot.Idle?
      ensures e + 1 < |r| && r[e + 1].slot.Ran? && r[e + 1].slot.index < |ps|
      ensures r[e].end == ps[r[e + 1].slot.index].arrival
    {
      if e < |g| {
        assert r[e] == g[e] && r[e + 1] == g[e + 1];
      }
    }
  }

  lemma StepRecords(ps: seq<Process>, k: nat, s: State)
    requires k < |ps| == |s.ps|
    requires forall j :: 0 <= j < |ps| ==> SameDescriptor(s.ps[j], ps[j]) && s.ps[j].remaining == ps[j].remaining
    requires forall j :: k <= j < |ps| ==> s.ps[j] == ps[j]
    ensures var r := Step(s, k);
      && (forall j :: 0 <= j < |ps| ==> SameDescriptor(r.ps[j], ps[j]) && r.ps[j].remaining == ps[j].remaining)
      && (forall j :: k + 1 <= j < |ps| ==> r.ps[j] == ps[j])
  {
  }

  lemma StepRunTimes(ps: seq<Process>, k: nat, s: State)
    requires k < |ps| == |s.ps| && s.ps[k] == ps[k]
    requires forall j :: 0 <= j < |ps| ==> RunTime(s.tl.gantt, j) == (if j < k then ps[j].burst else 0)
    ensures forall j :: 0 <= j < |ps| ==> RunTime(Step(s, k).tl.gantt, j) == (if j < k + 1 then ps[j].burst else 0)
  {
    var p := s.ps[k];
    var tl := if s.tl.now < p.arrival then IdleUntil(s.tl, p.arrival) else s.tl;
    assert Step(s, k).tl == Run(tl, k, p.burst);
  }

  /** The process just run is finished, and the earlier ones stay finished. */
  lemma StepFinishes(ps: seq<Process>, k: nat, s: State)
    requires k < |ps| && Handled(ps, k, s)
    ensures var r := Step(s, k);
      forall j :: 0 <= j < k + 1 ==> Finished(ps, r, j)
  {
    var r := Step(s, k);
    forall j | 0 <= j < k + 1
      ensures Finished(ps, r, j)
    {
      if j < k {
        StepKeepsFinished(ps, k, s, j);
      } else {
        StepFinishesCurrent(ps, k, s);
      }
    }
  }

  lemma StepKeepsFinished(ps: seq<Process>, k: nat, s: State, j: nat)
    requires k < |ps| && Handled(ps, k, s) && j < k
    ensures Finished(ps, Step(s, k), j)
  {
    var p := s.ps[k];
    var tl := if s.tl.now < p.arrival then IdleUntil(s.tl, p.arrival) else s.tl;
    var r := Step(s, k);
    assert r.tl == Run(tl, k, p.burst);
    assert r.ps[j] == s.ps[j];
    assert Finished(ps, s, j);
    assert j == 0 || r.ps[j - 1] == s.ps[j - 1];
  }

  lemma StepFinishesCurrent(ps: seq<Process>, k: nat, s: State)
    requires k < |ps| && Handled(ps, k, s)
    ensures Finished(ps, Step(s, k), k)
  {
    var p := s.ps[k];
    var tl := if s.tl.now < p.arrival then IdleUntil(s.tl, p.arrival) else s.tl;
    var r := Step(s, k);
    assert tl.now == Max(Ready(s.ps, k), ps[k].arrival);
    assert r.tl == Run(tl, k, p.burst);
    assert k == 0 || r.ps[k - 1] == s.ps[k - 1];
  }

  lemma StepClock(ps: seq<Process>, k: nat, s: State)
    requires k < |s.ps| && Consistent(s.tl) && s.tl.now == Ready(s.ps, k) && s.tl.idle == IdleGaps(s.ps, k)
    ensures var r := Step(s, k);
      Consistent(r.tl) && r.tl.now == Ready(r.ps, k + 1) && r.tl.idle == IdleGaps(r.ps, k + 1)
  {
    var p := s.ps[k];
    var r := Step(s, k);
    var tl := if s.tl.now < p.arrival then IdleUntil(s.tl, p.arrival) else s.tl;
    assert r.tl == Run(tl, k, p.burst);
    IdleGapsFrame(s.ps, k, r.ps[k], k);
    assert k == 0 || r.ps[k - 1] == s.ps[k - 1];
  }

  lemma NothingHandled(ps: seq<Process>)
    ensures Handled(ps, 0, State(Start, ps))
  {
    assert Range(0, 0) == [];
  }

  lemma StepKeeps(ps: seq<Process>, k: nat, s: State)
    requires k < |ps| && Handled(ps, k, s)
    ensures Handled(ps, k + 1, Step(s, k))
  {
    StepChart(ps, k, s);
    assert s.ps[k] == ps[k];
    StepIdle(ps, k, s);
    StepRecords(ps, k, s);
    StepRunTimes(ps, k, s);
    StepFinishes(ps, k, s);
    StepClock(ps, k, s);
  }

  /** The state after the loop has handled the first `k` processes of `ps`. */
  function RunFirst(ps: seq<Process>, k: nat): State
    requires k <= |ps|
  {
    if k == 0 then State(Start, ps)
    else
      var s := RunFirst(ps, k - 1);
      if k - 1 < |s.ps| then Step(s, k - 1) else s
  }

  /** `StepKeeps` stated for the `k`-th iteration, as `RunFirst` unfolds. */
  lemma StepHandles(ps: seq<Process>, k: nat, s: State)
    requires 0 < k <= |ps| && Handled(ps, k - 1, s)
    ensures Handled(ps, k, Step(s, k - 1))
  {
    var j := k - 1;
    StepKeeps(ps, j, s);
  }

  lemma RunFirstUnfold(ps: seq<Process>, k: nat)
    requires 0 < k <= |ps| && |RunFirst(ps, k - 1).ps| == |ps|
    ensures RunFirst(ps, k) == Step(RunFirst(ps, k - 1), k - 1)
  {
  }

  lemma {:induction false} RunFirstHandles(ps: seq<Process>, k: nat)
    requires k <= |ps|
    ensures Handled(ps, k, RunFirst(ps, k))
  {
    if k == 0 {
      NothingHandled(ps);
    } else {
      RunFirstHandles(ps, k - 1);
      StepHandles(ps, k, RunFirst(ps, k - 1));
      RunFirstUnfold(ps, k);
    }
  }

  /** The loop has run over the sorted list and `r` is the record built from
      its final state. */
  ghost predicate Built(procs: seq<Process>, sorted: seq<Process>, s: State, r: Report) {
    && sorted == SortByArrival(procs) && s == RunFirst(sorted, |sorted|)
    && r == GetResults(s.ps, s.tl.gantt, s.tl.now, s.tl.idle)
  }

  lemma BuildOrder(procs: seq<Process>, sorted: seq<Process>, s: State, r: Report)
    requires Built(procs, sorted, s, r)
    ensures |r.processes| == |procs| && SortedByArrival(r.processes)
    ensures forall k :: 0 <= k < |procs| ==>
              SameDescriptor(r.processes[k], procs[Order(procs)[k]]) && r.processes[k].remaining == procs[Order(procs)[k]].remaining
  {
    RunFirstHandles(sorted, |sorted|);
    OutcomeOrder(procs, sorted, s, r);
  }

  lemma BuildChart(procs: seq<Process>, sorted: seq<Process>, s: State, r: Report)
    requires Built(procs, sorted, s, r)
    ensures
      && |r.processes| == |procs|
      && Contiguous(r.gantt, 0, r.totalTime) && IdleGapsPositive(r.gantt)
      && (forall e :: 0 <= e < |r.gantt| && r.gantt[e].slot.Idle? ==>
            && e + 1 < |r.gantt| && r.gantt[e + 1].slot.Ran? && r.gantt[e + 1].slot.index < |procs|
            && r.gantt[e].end == r.processes[r.gantt[e + 1].slot.index].arrival)
      && r.totalIdle == IdleTime(r.gantt) && r.totalIdle == IdleGaps(r.processes, |procs|)
      && r.totalTime == Total(r.processes, Burst) + r.totalIdle
      && Runs(r.gantt) == Range(0, |procs|) && RunsWithin(r.gantt, |procs|)
      && (forall e :: 0 <= e < |r.gantt| && r.gantt[e].slot.Ran? ==>
            r.gantt[e].Length() == r.processes[r.gantt[e].slot.index].burst)
  {
    RunFirstHandles(sorted, |sorted|);
    OutcomeChart(sorted, s, r);
    OutcomeIdle(sorted, s, r);
  }

  lemma BuildRecords(procs: seq<Process>, sorted: seq<Process>, s: State, r: Report)
    requires Built(procs, sorted, s, r)
    ensures
      && |r.processes| == |procs|
      && (forall k :: 0 <= k < |procs| ==> FinishedInTurn(r, k))
      && r.totalTurnaround == Total(r.processes, Finish) - Total(r.processes, Arrival)
      && r.totalWaiting == r.totalTurnaround - Total(r.processes, Burst)
      && r.totalWaiting >= 0
  {
    RunFirstHandles(sorted, |sorted|);
    OutcomeFinished(sorted, s, r);
    OutcomeSums(r);
  }

  /** First-come, first-served scheduling of `procs`. The returned processes
      are `procs` stably sorted by arrival, with their completion recorded;
      chart entries refer to positions in that returned list. Each gap before
      a process arrives is one IDLE entry. */
  function Schedule(procs: seq<Process>): (r: Report)
    ensures |r.processes| == |procs| && SortedByArrival(r.processes)
    ensures forall k :: 0 <= k < |procs| ==>
              SameDescriptor(r.processes[k], procs[Order(procs)[k]]) && r.processes[k].remaining == procs[Order(procs)[k]].remaining
    ensures Contiguous(r.gantt, 0, r.totalTime) && IdleGapsPositive(r.gantt)
    ensures forall e :: 0 <= e < |r.gantt| && r.gantt[e].slot.Idle? ==>
              && e + 1 < |r.gantt| && r.gantt[e + 1].slot.Ran? && r.gantt[e + 1].slot.index < |procs|
              && r.gantt[e].end == r.processes[r.gantt[e + 1].slot.index].arrival
    ensures r.totalIdle == IdleTime(r.gantt) && r.totalIdle == IdleGaps(r.processes, |procs|)
    ensures r.totalTime == Total(r.processes, Burst) + r.totalIdle
    ensures Runs(r.gantt) == Range(0, |procs|) && RunsWithin(r.gantt, |procs|)
    ensures forall e :: 0 <= e < |r.gantt| && r.gantt[e].slot.Ran? ==>
              r.gantt[e].Length() == r.processes[r.gantt[e].slot.index].burst
    ensures forall k :: 0 <= k < |procs| ==> FinishedInTurn(r, k)
    ensures r.totalTurnaround == Total(r.processes, Finish) - Total(r.processes, Arrival)
    ensures r.totalWaiting == r.totalTurnaround - Total(r.processes, Burst)
    ensures r.totalWaiting >= 0
  {
    var sorted := SortByArrival(procs);
    var s := RunFirst(sorted, |sorted|);
    var r := GetResults(s.ps, s.tl.gantt, s.tl.now, s.tl.idle);
    BuildOrder(procs, sorted, s, r);
    BuildChart(procs, sorted, s, r);
    BuildRecords(procs, sorted, s, r);
    r
  }

  /** Process `k` of the result ran for exactly its burst, starting once it
      had arrived and the previous process had finished, and its completion
      fields are consistent. */
  ghost predicate FinishedInTurn(r: Report, k: nat)
    requires k < |r.processes|
  {
    && Identities(r.processes[k])
    && r.processes[k].waiting >= 0
    && r.processes[k].finish == Max(Ready(r.processes, k), r.processes[k].arrival) + r.processes[k].burst
    && r.processes[k].finish == LastEnd(r.gantt, k)
    && RunTime(r.gantt, k) == r.processes[k].burst
  }

  lemma OutcomeOrder(procs: seq<Process>, sorted: seq<Process>, s: State, r: Report)
    requires sorted == SortByArrival(procs) && Handled(sorted, |procs|, s) && Reports(r, s.ps, s.tl)
    ensures |r.processes| == |procs| && SortedByArrival(r.processes)
    ensures forall k :: 0 <= k < |procs| ==>
              SameDescriptor(r.processes[k], procs[Order(procs)[k]]) && r.processes[k].remaining == procs[Order(procs)[k]].remaining
  {
    forall a, b | 0 <= a < b < |r.processes|
      ensures r.processes[a].arrival <= r.processes[b].arrival
    {
      assert SameDescriptor(s.ps[a], sorted[a]) && SameDescriptor(s.ps[b], sorted[b]);
    }
  }

  lemma OutcomeChart(sorted: seq<Process>, s: State, r: Report)
    requires Handled(sorted, |sorted|, s) && Reports(r, s.ps, s.tl)
    ensures Contiguous(r.gantt, 0, r.totalTime) && IdleGapsPositive(r.gantt)
    ensures r.totalIdle == IdleTime(r.gantt) && r.totalIdle == IdleGaps(r.processes, |sorted|)
    ensures r.totalTime == Total(r.processes, Burst) + r.totalIdle
    ensures Runs(r.gantt) == Range(0, |sorted|) && RunsWithin(r.gantt, |sorted|)
    ensures forall e :: 0 <= e < |r.gantt| && r.gantt[e].slot.Ran? ==>
              r.gantt[e].Length() == r.processes[r.gantt[e].slot.index].burst
  {
    var g := s.tl.gantt;
    TiledIsContiguous(g, 0, s.tl.now);
    TiledSpan(g, 0, s.tl.now);
    forall i | 0 <= i < |s.ps|
      ensures RunTime(g, i) == s.ps[i].burst
    {
      assert SameDescriptor(s.ps[i], sorted[i]);
    }
    BusyIsTotalBurst(g, s.ps);
    forall e | 0 <= e < |g| && g[e].slot.Ran?
      ensures g[e].Length() == s.ps[g[e].slot.index].burst
    {
      assert SameDescriptor(s.ps[g[e].slot.index], sorted[g[e].slot.index]);
    }
  }

  lemma OutcomeSums(r: Report)
    requires r == GetResults(r.processes, r.gantt, r.totalTime, r.totalIdle)
    requires forall k :: 0 <= k < |r.processes| ==> FinishedInTurn(r, k)
    ensures r.totalTurnaround == Total(r.processes, Finish) - Total(r.processes, Arrival)
    ensures r.totalWaiting == r.totalTurnaround - Total(r.processes, Burst)
    ensures r.totalWaiting >= 0
  {
    assert AllCompleted(r.processes) && forall k :: 0 <= k < |r.processes| ==> r.processes[k].waiting >= 0 by {
      forall k | 0 <= k < |r.processes|
        ensures Identities(r.processes[k]) && r.processes[k].waiting >= 0
      {
        assert FinishedInTurn(r, k);
      }
    }
  }

  lemma OutcomeIdle(sorted: seq<Process>, s: State, r: Report)
    requires Handled(sorted, |sorted|, s) && Reports(r, s.ps, s.tl)
    ensures forall e :: 0 <= e < |r.gantt| && r.gantt[e].slot.Idle? ==>
              && e + 1 < |r.gantt| && r.gantt[e + 1].slot.Ran? && r.gantt[e + 1].slot.index < |sorted|
              && r.gantt[e].end == r.processes[r.gantt[e + 1].slot.index].arrival
  {
    var g := s.tl.gantt;
    forall e | 0 <= e < |g| && g[e].slot.Idle?
      ensures e + 1 < |g| && g[e + 1].slot.Ran? && g[e + 1].slot.index < |sorted|
      ensures g[e].end == s.ps[g[e + 1].slot.index].arrival
    {
      assert SameDescriptor(s.ps[g[e + 1].slot.index], sorted[g[e + 1].slot.index]);
    }
  }

  lemma OutcomeFinished(sorted: seq<Process>, s: State, r: Report)
    requires Handled(sorted, |sorted|, s) && Reports(r, s.ps, s.tl)
    ensures forall k :: 0 <= k < |sorted| ==> FinishedInTurn(r, k)
  {
    forall k | 0 <= k < |sorted|
      ensures FinishedInTurn(r, k)
    {
      assert Finished(sorted, s, k);
      assert SameDescriptor(s.ps[k], sorted[k]);
    }
  }
}

=== FILE: metrics.dfy ===
/** The integer part of the result aggregation: the returned record passes the
    processes, the chart, the total time and the idle time through, and sums
    turnaround and waiting times. */
module Metrics {
  import opened Types

  datatype Report = Report(
    processes: seq<Process>,
    gantt: seq<GanttEntry>,
    totalTime: int,
    totalIdle: int,
    totalTurnaround: int,
    totalWaiting: int)

  function Turnaround(p: Process): int { p.turnaround }
  function Waiting(p: Process): int { p.waiting }
  function Finish(p: Process): int { p.finish }
  function Arrival(p: Process): int { p.arrival }

  ghost predicate AllCompleted(ps: seq<Process>) {
    forall i :: 0 <= i < |ps| ==> Identities(ps[i])
  }

  lemma {:induction false} SumsOfIdentities(ps: seq<Process>)
    requires AllCompleted(ps)
    ensures Total(ps, Turnaround) == Total(ps, Finish) - Total(ps, Arrival)
    ensures Total(ps, Waiting) == Total(ps, Turnaround) - Total(ps, Burst)
  {
    if |ps| > 0 {
      SumsOfIdentities(ps[..|ps| - 1]);
    }
  }

  lemma {:induction false} SumOfNonNegative(ps: seq<Process>)
    requires forall i :: 0 <= i < |ps| ==> ps[i].waiting >= 0
    ensures Total(ps, Waiting) >= 0
  {
    if |ps| > 0 {
      SumOfNonNegative(ps[..|ps| - 1]);
    }
  }

  lemma TotalsOf(ps: seq<Process>)
    ensures AllCompleted(ps) ==> Total(ps, Turnaround) == Total(ps, Finish) - Total(ps, Arrival)
    ensures AllCompleted(ps) ==> Total(ps, Waiting) == Total(ps, Turnaround) - Total(ps, Burst)
    ensures (forall i :: 0 <= i < |ps| ==> ps[i].waiting >= 0) ==> Total(ps, Waiting) >= 0
  {
    if AllCompleted(ps) {
      SumsOfIdentities(ps);
    }
    if forall i :: 0 <= i < |ps| ==> ps[i].waiting >= 0 {
      SumOfNonNegative(ps);
    }
  }

  /** The integer fields of the result record. */
  function GetResults(ps: seq<Process>, g: seq<GanttEntry>, totalTime: int, totalIdle: int): (r: Report)
    ensures r.processes == ps && r.gantt == g
    ensures r.totalTime == totalTime && r.totalIdle == totalIdle
    ensures AllCompleted(ps) ==> r.totalTurnaround == Total(ps, Finish) - Total(ps, Arrival)
    ensures AllCompleted(ps) ==> r.totalWaiting == r.totalTurnaround - Total(ps, Burst)
    ensures (forall i :: 0 <= i < |ps| ==> ps[i].waiting >= 0) ==> r.totalWaiting >= 0
  {
    TotalsOf(ps);
    Report(ps, g, totalTime, totalIdle, Total(ps, Turnaround), Total(ps, Waiting))
  }

  /** The report carries a final state's processes, chart and clock. */
  ghost predicate Reports(r: Report, ps: seq<Process>, tl: Timeline) {
    r.processes == ps && r.gantt == tl.gantt && r.totalTime == tl.now && r.totalIdle == tl.idle
  }
}

=== FILE: non_preemptive.dfy ===
/** Non-preemptive shortest-job-first and priority scheduling. Both walk the
    process list in input order with one loop: while some process is not
    completed, pick, among the processes that have arrived and are not
    completed, the one with the smallest key (the first in the list on a tie)
    and run it to completion; when none has arrived, idle until the earliest
    arrival among the processes not completed. The policies differ only in the
    key. */
module NonPreemptive {
  import opened Types
  import opened Metrics

  datatype Policy = ShortestJobFirst | PriorityFirst

  /** The selection key: (burst, arrival) for shortest job first,
      (priority, arrival) for priority scheduling, where a lower number is a
      higher priority. */
  function Key(policy: Policy, p: Process): (int, int) {
    match policy
    case ShortestJobFirst => (p.burst, p.arrival)
    case PriorityFirst => (p.priority, p.arrival)
  }

  /** Lexicographic order on keys, as tuples compare. */
  predicate KeyLess(a: (int, int), b: (int, int)) {
    a.0 < b.0 || (a.0 == b.0 && a.1 < b.1)
  }

  /** Between two waiting processes, `i` is picked before `j`: a smaller key,
      or the same key and earlier in the list. */
  predicate Precedes(policy: Policy, ps: seq<Process>, i: nat, j: nat)
    requires i < |ps| && j < |ps|
  {
    KeyLess(Key(policy, ps[i]), Key(policy, ps[j]))
    || (Key(policy, ps[i]) == Key(policy, ps[j]) && i < j)
  }

  /** The clock and chart, the processes, which of them are completed, and
      how many. */
  datatype State = State(tl: Timeline, ps: seq<Process>, done: seq<bool>, completed: nat)

  /** The number of completed flags. */
  function NumDone(done: seq<bool>): nat {
    if |done| == 0 then 0 else NumDone(done[..|done| - 1]) + (if done[|done| - 1] then 1 else 0)
  }

  lemma {:induction false} NumDoneSet(done: seq<bool>, i: nat)
    requires i < |done| && !done[i]
    ensures NumDone(done[i := true]) == NumDone(done) + 1
    decreases |done|
  {
    var n := |done| - 1;
    if i < n {
      assert done[i := true][..n] == done[..n][i := true];
      NumDoneSet(done[..n], i);
    } else {
      assert done[i := true][..n] == done[..n];
    }
  }

  /** Setting a flag counts one more exactly when it was clear. */
  lemma Mark(done: seq<bool>, i: nat)
    requires i < |done|
    ensures !done[i] ==> NumDone(done[i := true]) == NumDone(done) + 1
    ensures done[i] ==> done[i := true] == done
  {
    if !done[i] {
      NumDoneSet(done, i);
    }
  }

  lemma {:induction false} NumDoneAtMost(done: seq<bool>)
    ensures NumDone(done) <= |done|
    decreases |done|
  {
    if |done| > 0 {
      NumDoneAtMost(done[..|done| - 1]);
    }
  }

  lemma {:induction false} NumDoneBelow(done: seq<bool>, i: nat)
    requires i < |done| && !done[i]
    ensures NumDone(done) < |done|
    decreases |done|
  {
    var n := |done| - 1;
    if i < n {
      NumDoneBelow(done[..n], i);
    } else {
      NumDoneAtMost(done[..n]);
    }
  }

  lemma {:induction false} AllDone(done: seq<bool>)
    ensures (forall i :: 0 <= i < |done| ==> done[i]) ==> NumDone(done) == |done|
    decreases |done|
  {
    if |done| > 0 {
      var f := done[..|done| - 1];
      AllDone(f);
      assert forall i :: 0 <= i < |f| ==> f[i] == done[i];
    }
  }

  /** A full count means every flag is set. */
  lemma FullCount(done: seq<bool>)
    ensures NumDone(done) >= |done| ==> forall i :: 0 <= i < |done| ==> done[i]
  {
    forall i | 0 <= i < |done| && !done[i]
      ensures NumDone(done) < |done|
    {
      NumDoneBelow(done, i);
    }
  }

  lemma {:induction false} NoneDone(n: nat)
    ensures NumDone(seq(n, _ => false)) == 0
  {
    if n > 0 {
      assert seq(n, _ => false)[..n - 1] == seq(n - 1, _ => false);
      NoneDone(n - 1);
    }
  }

  /** Process `j` has arrived by `now` and is not completed. */
  predicate Available(ps: seq<Process>, done: seq<bool>, now: int, j: nat)
    requires j < |ps| == |done|
  {
    !done[j] && ps[j].arrival <= now
  }

  /** The first process with the smallest key among the available ones in
      positions below `k`, as a left-to-right minimum search that replaces its
      candidate only on a strictly smaller key finds it. */
  function Best(policy: Policy, ps: seq<Process>, done: seq<bool>, now: int, k: nat): (r: Option<nat>)
    requires k <= |ps| == |done|
    ensures r.None? <==> forall j :: 0 <= j < k ==> !Available(ps, done, now, j)
    ensures r.Some? ==> r.value < k && Available(ps, done, now, r.value)
    ensures r.Some? ==> forall j :: 0 <= j < k && Available(ps, done, now, j) ==>
              !KeyLess(Key(policy, ps[j]), Key(policy, ps[r.value]))
    ensures r.Some? ==> forall j :: 0 <= j < r.value && Available(ps, done, now, j) ==>
              KeyLess(Key(policy, ps[r.value]), Key(policy, ps[j]))
  {
    if k == 0 then None
    else
      var b := Best(policy, ps, done, now, k - 1);
      if !Available(ps, done, now, k - 1) then b
      else if b.None? then Some(k - 1)
      else if KeyLess(Key(policy, ps[k - 1]), Key(policy, ps[b.value])) then Some(k - 1)
      else b
  }

  /** The process the loop picks in state `s`, if any has arrived. */
  function Select(policy: Policy, s: State): Option<nat>
    requires |s.ps| == |s.done|
  {
    Best(policy, s.ps, s.done, s.tl.now, |s.ps|)
  }

  /** The first process with the earliest arrival among those in positions
      below `k` that are not completed. */
  function EarliestPending(ps: seq<Process>, done: seq<bool>, k: nat): (r: Option<nat>)
    requires k <= |ps| == |done|
    ensures r.None? <==> forall j :: 0 <= j < k ==> done[j]
    ensures r.Some? ==> r.value < k && !done[r.value]
    ensures r.Some? ==> forall j :: 0 <= j < k && !done[j] ==> ps[r.value].arrival <= ps[j].arrival
  {
    if k == 0 then None
    else
      var b := EarliestPending(ps, done, k - 1);
      if done[k - 1] then b
      else if b.None? || ps[k - 1].arrival < ps[b.value].arrival then Some(k - 1)
      else b
  }

  /** Run process `i` to completion from the current clock. */
  function RunStep(s: State, i: nat): (r: State)
    requires i < |s.ps| == |s.done|
    ensures r.tl.gantt == s.tl.gantt + [GanttEntry(Ran(i), s.tl.now, r.tl.now)]
    ensures r.tl.now == s.tl.now + s.ps[i].burst && r.tl.idle == s.tl.idle
    ensures |r.ps| == |s.ps| && r.ps[i] == Complete(s.ps[i], r.tl.now)
    ensures forall j :: 0 <= j < |s.ps| && j != i ==> r.ps[j] == s.ps[j]
    ensures |r.done| == |s.done| && r.done[i] && forall j :: 0 <= j < |s.done| && j != i ==> r.done[j] == s.done[j]
    ensures s.completed == NumDone(s.done) && !s.done[i] ==> r.completed == NumDone(r.done)
  {
    Mark(s.done, i);
    var tl := Run(s.tl, i, s.ps[i].burst);
    State(tl, s.ps[i := Complete(s.ps[i], tl.now)], s.done[i := true], s.completed + 1)
  }

  /** Idle up to time `t`. */
  function IdleStep(s: State, t: int): (r: State)
    ensures r.tl.gantt == s.tl.gantt + [GanttEntry(Idle, s.tl.now, t)]
    ensures r.tl.now == t && r.tl.idle == s.tl.idle + (t - s.tl.now)
    ensures r.ps == s.ps && r.done == s.done && r.completed == s.completed
  {
    s.(tl := IdleUntil(s.tl, t))
  }

  /** After idling until the earliest pending arrival, some process has
      arrived. */
  lemma IdleMakesAvailable(policy: Policy, s: State, e: nat)
    requires |s.ps| == |s.done| && e < |s.ps| && !s.done[e]
    ensures Select(policy, IdleStep(s, s.ps[e].arrival)).Some?
  {
    var s' := IdleStep(s, s.ps[e].arrival);
    assert Available(s'.ps, s'.done, s'.tl.now, e);
  }

  /** The scheduling loop, from state `s` until every process is completed. */
  function Loop(policy: Policy, s: State): (r: State)
    requires |s.done| == |s.ps| && s.completed == NumDone(s.done)
    ensures |r.ps| == |s.ps| && |r.done| == |s.done| && r.completed == |s.ps|
    ensures forall i :: 0 <= i < |r.done| ==> r.done[i]
    ensures forall i :: 0 <= i < |s.ps| && s.done[i] ==> r.ps[i] == s.ps[i]
    decreases |s.ps| - s.completed, if Select(policy, s).None? then 1 else 0
  {
    if s.completed >= |s.ps| then
      FullCount(s.done);
      NumDoneAtMost(s.done);
      s
    else match Select(policy, s)
      case Some(i) =>
        NumDoneSet(s.done, i);
        Loop(policy, RunStep(s, i))
      case None =>
        AllDone(s.done);
        var e := EarliestPending(s.ps, s.done, |s.ps|).value;
        IdleMakesAvailable(policy, s, e);
        Loop(policy, IdleStep(s, s.ps[e].arrival))
  }

  /** The chart entry `x`, appended after `prior`, follows the scheduling rule
      for the processes `ps`: an IDLE entry covers a positive span during which
      no process not yet run had arrived, and ends at the earliest arrival
      among them; a process entry runs a process not yet run, which had
      arrived, for its whole burst, and that process precedes every other
      process not yet run that had arrived. */
  ghost predicate Justified(policy: Policy, ps: seq<Process>, prior: seq<GanttEntry>, x: GanttEntry) {
    match x.slot
    case Idle =>
      && x.start < x.end
      && (forall j :: 0 <= j < |ps| && j !in Runs(prior) ==> x.end <= ps[j].arrival)
      && (exists j :: 0 <= j < |ps| && j !in Runs(prior) && ps[j].arrival == x.end)
    case Ran(i) =>
      && i < |ps| && i !in Runs(prior)
      && ps[i].arrival <= x.start && x.Length() == ps[i].burst
      && (forall j :: 0 <= j < |ps| && j !in Runs(prior) && j != i && ps[j].arrival <= x.start ==>
            Precedes(policy, ps, i, j))
  }

  /** Every entry of the chart follows the scheduling rule, given the entries
      before it. */
  ghost predicate AllJustified(policy: Policy, ps: seq<Process>, g: seq<GanttEntry>)
    decreases |g|
  {
    |g| == 0 || (AllJustified(policy, ps, Front(g)) && Justified(policy, ps, Front(g), Last(g)))
  }

  lemma {:induction false} JustifiedAt(policy: Policy, ps: seq<Process>, g: seq<GanttEntry>)
    requires AllJustified(policy, ps, g)
    ensures forall e :: 0 <= e < |g| ==> Justified(policy, ps, g[..e], g[e])
    decreases |g|
  {
    if |g| > 0 {
      var f := Front(g);
      JustifiedAt(policy, ps, f);
      forall e | 0 <= e < |g|
        ensures Justified(policy, ps, g[..e], g[e])
      {
        if e < |f| {
          assert f[..e] == g[..e] && f[e] == g[e];
        } else {
          assert g[..e] == f;
        }
      }
    }
  }

  /** A completed process's record agrees with the chart. */
  ghost predicate Settled(p: Process, g: seq<GanttEntry>, i: nat) {
    Identities(p) && p.finish == LastEnd(g, i) && p.waiting >= 0
  }

  /** Counting: the flags, the counter and the chart's runs agree. */
  ghost predicate Shape(ps: seq<Process>, s: State) {
    && |s.ps| == |ps| && |s.done| == |ps|
    && s.completed == NumDone(s.done) && |Runs(s.tl.gantt)| == s.completed
    && RunsWithin(s.tl.gantt, |ps|)
    && (forall i :: 0 <= i < |ps| ==> (s.done[i] <==> i in Runs(s.tl.gantt)))
  }

  /** The records: descriptors kept, completed ones ran once for their burst
      and carry consistent completion fields, the others have not run. */
  ghost predicate Records(ps: seq<Process>, s: State) {
    && |s.ps| == |ps| && |s.done| == |ps|
    && (forall i :: 0 <= i < |ps| ==> SameDescriptor(s.ps[i], ps[i]) && s.ps[i].remaining == ps[i].remaining)
    && (forall i :: 0 <= i < |ps| ==> RunTime(s.tl.gantt, i) == (if s.done[i] then ps[i].burst else 0))
    && (forall i :: 0 <= i < |ps| && s.done[i] ==> Settled(s.ps[i], s.tl.gantt, i))
  }

  /** The chart tiles the time so far and follows the scheduling rule. */
  ghost predicate Timing(policy: Policy, ps: seq<Process>, s: State) {
    Consistent(s.tl) && AllJustified(policy, ps, s.tl.gantt)
  }

  ghost predicate Inv(policy: Policy, ps: seq<Process>, s: State) {
    Shape(ps, s) && Records(ps, s) && Timing(policy, ps, s)
  }

  lemma RunShape(policy: Policy, ps: seq<Process>, s: State, i: nat)
    requires Shape(ps, s) && Select(policy, s) == Some(i)
    ensures Shape(ps, RunStep(s, i))
  {
    NumDoneSet(s.done, i);
  }

  lemma RunRecords(policy: Policy, ps: seq<Process>, s: State, i: nat)
    requires Shape(ps, s) && Records(ps, s) && Select(policy, s) == Some(i)
    ensures Records(ps, RunStep(s, i))
  {
    var r := RunStep(s, i);
    assert Available(s.ps, s.done, s.tl.now, i);
    forall j | 0 <= j < |ps| && r.done[j]
      ensures Settled(r.ps[j], r.tl.gantt, j)
    {
      if j != i {
        assert r.ps[j] == s.ps[j] && s.done[j];
      }
    }
  }

  lemma RunJustified(policy: Policy, ps: seq<Process>, s: State, i: nat)
    requires Shape(ps, s) && Records(ps, s) && Select(policy, s) == Some(i)
    ensures Justified(policy, ps, s.tl.gantt, GanttEntry(Ran(i), s.tl.now, s.tl.now + s.ps[i].burst))
  {
    var g := s.tl.gantt;
    assert Available(s.ps, s.done, s.tl.now, i);
    assert SameDescriptor(s.ps[i], ps[i]);
    forall j | 0 <= j < |ps| && j !in Runs(g) && j != i && ps[j].arrival <= s.tl.now
      ensures Precedes(policy, ps, i, j)
    {
      assert SameDescriptor(s.ps[j], ps[j]);
      assert Available(s.ps, s.done, s.tl.now, j);
    }
  }

  lemma RunTiming(policy: Policy, ps: seq<Process>, s: State, i: nat)
    requires Inv(policy, ps, s) && Select(policy, s) == Some(i)
    ensures Timing(policy, ps, RunStep(s, i))
  {
    var x := GanttEntry(Ran(i), s.tl.now, s.tl.now + s.ps[i].burst);
    RunJustified(policy, ps, s, i);
    FrontOfAppend(s.tl.gantt, x);
  }

  lemma IdleJustified(policy: Policy, ps: seq<Process>, s: State, e: nat)
    requires Shape(ps, s) && Records(ps, s) && Select(policy, s).None?
    requires EarliestPending(s.ps, s.done, |s.ps|) == Some(e)
    ensures Justified(policy, ps, s.tl.gantt, GanttEntry(Idle, s.tl.now, s.ps[e].arrival))
  {
    var g := s.tl.gantt;
    assert SameDescriptor(s.ps[e], ps[e]);
    assert !Available(s.ps, s.done, s.tl.now, e);
    forall j | 0 <= j < |ps| && j !in Runs(g)
      ensures s.ps[e].arrival <= ps[j].arrival
    {
      assert SameDescriptor(s.ps[j], ps[j]);
    }
  }

  lemma IdleKeeps(policy: Policy, ps: seq<Process>, s: State, e: nat)
    requires Inv(policy, ps, s) && Select(policy, s).None?
    requires EarliestPending(s.ps, s.done, |s.ps|) == Some(e)
    ensures Inv(policy, ps, IdleStep(s, s.ps[e].arrival))
  {
    IdleShape(ps, s, s.ps[e].arrival);
    IdleRecords(ps, s, s.ps[e].arrival);
    IdleTiming(policy, ps, s, e);
  }

  lemma IdleShape(ps: seq<Process>, s: State, t: int)
    requires Shape(ps, s)
    ensures Shape(ps, IdleStep(s, t))
  { }

  lemma IdleRecords(ps: seq<Process>, s: State, t: int)
    requires Records(ps, s)
    ensures Records(ps, IdleStep(s, t))
  { }

  lemma IdleTiming(policy: Policy, ps: seq<Process>, s: State, e: nat)
    requires Shape(ps, s) && Records(ps, s) && Timing(policy, ps, s) && Select(policy, s).None?
    requires EarliestPending(s.ps, s.done, |s.ps|) == Some(e)
    ensures Timing(policy, ps, IdleStep(s, s.ps[e].arrival))
  {
    var x := GanttEntry(Idle, s.tl.now, s.ps[e].arrival);
    IdleJustified(policy, ps, s, e);
    FrontOfAppend(s.tl.gantt, x);
  }

  lemma RunKeeps(policy: Policy, ps: seq<Process>, s: State, i: nat)
    requires Inv(policy, ps, s) && Select(policy, s) == Some(i)
    ensures Inv(policy, ps, RunStep(s, i))
  {
    RunShape(policy, ps, s, i);
    RunRecords(policy, ps, s, i);
    RunTiming(policy, ps, s, i);
  }

  /** The loop keeps the invariant and stops with every process completed. */
  lemma {:induction false} LoopKeeps(policy: Policy, ps: seq<Process>, s: State)
    requires Inv(policy, ps, s)
    ensures Inv(policy, ps, Loop(policy, s))
    ensures forall i :: 0 <= i < |ps| ==> Loop(policy, s).done[i]
    decreases |s.ps| - s.completed, if Select(policy, s).None? then 1 else 0
  {
    if s.completed >= |s.ps| {
      forall i | 0 <= i < |ps|
        ensures s.done[i]
      {
        if !s.done[i] {
          NumDoneBelow(s.done, i);
        }
      }
    } else {
      match Select(policy, s)
      case Some(i) =>
        RunKeeps(policy, ps, s, i);
        NumDoneSet(s.done, i);
        LoopKeeps(policy, ps, RunStep(s, i));
      case None =>
        AllDone(s.done);
        var e := EarliestPending(s.ps, s.done, |s.ps|).value;
        IdleKeeps(policy, ps, s, e);
        IdleMakesAvailable(policy, s, e);
        LoopKeeps(policy, ps, IdleStep(s, s.ps[e].arrival));
    }
  }

  lemma Begins(policy: Policy, ps: seq<Process>)
    ensures Inv(policy, ps, State(Start, ps, seq(|ps|, _ => false), 0))
  {
    NoneDone(|ps|);
  }

  /** The loop run from the start: nothing completed, clock at 0. */
  function Final(policy: Policy, procs: seq<Process>): State {
    NoneDone(|procs|);
    Loop(policy, State(Start, procs, seq(|procs|, _ => false), 0))
  }

  lemma FinalInv(policy: Policy, procs: seq<Process>)
    ensures Inv(policy, procs, Final(policy, procs))
    ensures forall i :: 0 <= i < |procs| ==> Final(policy, procs).done[i]
  {
    Begins(policy, procs);
    LoopKeeps(policy, procs, State(Start, procs, seq(|procs|, _ => false), 0));
  }

  /** Both policies: the processes come back in input order with their
      completion recorded; chart entries refer to input positions. Every
      process runs exactly once, for its whole burst, and every entry follows
      the scheduling rule. */
  function Schedule(policy: Policy, procs: seq<Process>): (r: Report)
    ensures |r.processes| == |procs|
    ensures forall i :: 0 <= i < |procs| ==>
              SameDescriptor(r.processes[i], procs[i]) && r.processes[i].remaining == procs[i].remaining
    ensures Contiguous(r.gantt, 0, r.totalTime) && r.totalIdle == IdleTime(r.gantt)
    ensures r.totalTime == Total(procs, Burst) + r.totalIdle
    ensures RunsWithin(r.gantt, |procs|) && |Runs(r.gantt)| == |procs|
    ensures forall i :: 0 <= i < |procs| ==> i in Runs(r.gantt) && RunTime(r.gantt, i) == procs[i].burst
    ensures forall i :: 0 <= i < |procs| ==> Settled(r.processes[i], r.gantt, i)
    ensures forall e :: 0 <= e < |r.gantt| ==> Justified(policy, procs, r.gantt[..e], r.gantt[e])
    ensures r.totalTurnaround == Total(r.processes, Finish) - Total(r.processes, Arrival)
    ensures r.totalWaiting == r.totalTurnaround - Total(r.processes, Burst)
    ensures r.totalWaiting >= 0
  {
    var s := Final(policy, procs);
    FinalInv(policy, procs);
    var r := GetResults(s.ps, s.tl.gantt, s.tl.now, s.tl.idle);
    OutcomeChart(policy, procs, s, r);
    OutcomeRecords(policy, procs, s, r);
    assert AllCompleted(r.processes) by {
      forall i | 0 <= i < |procs|
        ensures Identities(r.processes[i])
      {
        assert Settled(r.processes[i], r.gantt, i);
      }
    }
    r
  }

  lemma OutcomeChart(policy: Policy, procs: seq<Process>, s: State, r: Report)
    requires Inv(policy, procs, s) && Reports(r, s.ps, s.tl)
    requires forall i :: 0 <= i < |procs| ==> s.done[i]
    ensures Contiguous(r.gantt, 0, r.totalTime) && r.totalIdle == IdleTime(r.gantt)
    ensures r.totalTime == Total(procs, Burst) + r.totalIdle
    ensures forall e :: 0 <= e < |r.gantt| ==> Justified(policy, procs, r.gantt[..e], r.gantt[e])
  {
    var g := s.tl.gantt;
    TiledIsContiguous(g, 0, s.tl.now);
    TiledSpan(g, 0, s.tl.now);
    BusyIsTotalBurst(g, procs);
    JustifiedAt(policy, procs, g);
  }

  lemma OutcomeRecords(policy: Policy, procs: seq<Process>, s: State, r: Report)
    requires Inv(policy, procs, s) && Reports(r, s.ps, s.tl)
    requires forall i :: 0 <= i < |procs| ==> s.done[i]
    requires r == GetResults(r.processes, r.gantt, r.totalTime, r.totalIdle)
    ensures RunsWithin(r.gantt, |procs|) && |Runs(r.gantt)| == |procs|
    ensures forall i :: 0 <= i < |procs| ==> i in Runs(r.gantt) && RunTime(r.gantt, i) == procs[i].burst
    ensures forall i :: 0 <= i < |procs| ==> Settled(r.processes[i], r.gantt, i)
    ensures r.totalWaiting >= 0
  {
    AllDone(s.done);
    assert forall i :: 0 <= i < |procs| ==> Settled(s.ps[i], s.tl.gantt, i);
  }

  /** Shortest job first. */
  function Sjf(procs: seq<Process>): (r: Report)
    ensures |r.processes| == |procs| && RunsWithin(r.gantt, |procs|)
    ensures forall e :: 0 <= e < |r.gantt| && r.gantt[e].slot.Ran? ==> ShortestArrived(procs, r.gantt, e)
  {
    var r := Schedule(ShortestJobFirst, procs);
    forall e | 0 <= e < |r.gantt| && r.gantt[e].slot.Ran?
      ensures ShortestArrived(procs, r.gantt, e)
    {
      ShortestArrivedRule(procs, r.gantt, e);
    }
    r
  }

  /** The process of entry `e` had arrived by the entry's start, and no other
      process not yet run that had arrived by then has a shorter burst, or an
      equal burst and an earlier arrival. */
  ghost predicate ShortestArrived(procs: seq<Process>, g: seq<GanttEntry>, e: nat)
    requires e < |g| && g[e].slot.Ran? && RunsWithin(g, |procs|)
  {
    var i := g[e].slot.index;
    && procs[i].arrival <= g[e].start
    && forall j :: 0 <= j < |procs| && j !in Runs(g[..e]) && procs[j].arrival <= g[e].start ==>
         procs[i].burst < procs[j].burst
         || (procs[i].burst == procs[j].burst && procs[i].arrival <= procs[j].arrival)
  }

  /** Priority scheduling; a lower number is a higher priority. */
  function Priority(procs: seq<Process>): (r: Report)
    ensures |r.processes| == |procs| && RunsWithin(r.gantt, |procs|)
    ensures forall e :: 0 <= e < |r.gantt| && r.gantt[e].slot.Ran? ==> HighestPriorityArrived(procs, r.gantt, e)
  {
    var r := Schedule(PriorityFirst, procs);
    forall e | 0 <= e < |r.gantt| && r.gantt[e].slot.Ran?
      ensures HighestPriorityArrived(procs, r.gantt, e)
    {
      HighestPriorityArrivedRule(procs, r.gantt, e);
    }
    r
  }

  /** The process of entry `e` had arrived by the entry's start, and no other
      process not yet run that had arrived by then has a lower priority number,
      or an equal one and an earlier arrival. */
  ghost predicate HighestPriorityArrived(procs: seq<Process>, g: seq<GanttEntry>, e: nat)
    requires e < |g| && g[e].slot.Ran? && RunsWithin(g, |procs|)
  {
    var i := g[e].slot.index;
    && procs[i].arrival <= g[e].start
    && forall j :: 0 <= j < |procs| && j !in Runs(g[..e]) && procs[j].arrival <= g[e].start ==>
         procs[i].priority < procs[j].priority
         || (procs[i].priority == procs[j].priority && procs[i].arrival <= procs[j].arrival)
  }

  lemma ShortestArrivedRule(procs: seq<Process>, g: seq<GanttEntry>, e: nat)
    requires e < |g| && g[e].slot.Ran? && RunsWithin(g, |procs|)
    requires Justified(ShortestJobFirst, procs, g[..e], g[e])
    ensures ShortestArrived(procs, g, e)
  {
    var i := g[e].slot.index;
    forall j | 0 <= j < |procs| && j !in Runs(g[..e]) && procs[j].arrival <= g[e].start && j != i
      ensures procs[i].burst < procs[j].burst
              || (procs[i].burst == procs[j].burst && procs[i].arrival <= procs[j].arrival)
    {
      assert Precedes(ShortestJobFirst, procs, i, j);
    }
  }

  lemma HighestPriorityArrivedRule(procs: seq<Process>, g: seq<GanttEntry>, e: nat)
    requires e < |g| && g[e].slot.Ran? && RunsWithin(g, |procs|)
    requires Justified(PriorityFirst, procs, g[..e], g[e])
    ensures HighestPriorityArrived(procs, g, e)
  {
    var i := g[e].slot.index;
    forall j | 0 <= j < |procs| && j !in Runs(g[..e]) && procs[j].arrival <= g[e].start && j != i
      ensures procs[i].priority < procs[j].priority
              || (procs[i].priority == procs[j].priority && procs[i].arrival <= procs[j].arrival)
    {
      assert Precedes(PriorityFirst, procs, i, j);
    }
  }
}

=== FILE: round_robin.dfy ===
/** Round robin: copy the processes, sort the copies stably by arrival, and
    serve a first-in, first-out ready queue. Each turn pops the head, runs it
    for the quantum or what it has left, whichever is less, then appends the
    processes that have arrived by the new clock, and only then appends the
    preempted process again if it has work left. When the queue is empty, idle
    until the next process to admit arrives and admit it. */
module RoundRobin {
  import opened Types
  import opened ArrivalOrder
  import opened Metrics

  /** The clock and chart, the copies, the ready queue (positions in the
      sorted list), how many have been admitted, and how many completed. */
  datatype State = State(tl: Timeline, ps: seq<Process>, queue: seq<nat>, next: nat, completed: nat)

  /** Admit, in list order, the processes from `next` on that have arrived by
      `now`; returns the new queue and the new admission count. */
  function Admit(ps: seq<Process>, queue: seq<nat>, next: nat, now: int): (r: (seq<nat>, nat))
    requires next <= |ps|
    ensures next <= r.1 <= |ps| && r.0 == queue + Range(next, r.1)
    ensures forall j :: next <= j < r.1 ==> ps[j].arrival <= now
    ensures r.1 == |ps| || now < ps[r.1].arrival
    decreases |ps| - next
  {
    if next < |ps| && ps[next].arrival <= now then
      var r := Admit(ps, queue + [next], next + 1, now);
      assert [next] + Range(next + 1, r.1) == Range(next, r.1);
      r
    else
      assert Range(next, next) == [];
      (queue, next)
  }

  /** Every queued position is below the admission count, and the counts add
      up: each admitted process is either queued or completed. */
  ghost predicate WellFormed(s: State) {
    && s.next <= |s.ps|
    && s.completed + |s.queue| == s.next
    && (forall k :: 0 <= k < |s.queue| ==> s.queue[k] < s.next)
  }

  /** The state before the loop: the first process is admitted if it has
      arrived at time 0 (a single `if`, not a loop). */
  function Initial(ps: seq<Process>): (s: State)
    ensures WellFormed(s) && s.tl == Start && s.ps == ps && s.completed == 0
    ensures s.next <= 1 && |s.queue| == s.next && forall k :: 0 <= k < |s.queue| ==> s.queue[k] == k
    ensures forall j :: 0 <= j < s.next ==> ps[j].arrival <= 0
    ensures s.next == 0 ==> |ps| == 0 || 0 < ps[0].arrival
  {
    if 0 < |ps| && ps[0].arrival <= 0 then State(Start, ps, [0], 1, 0)
    else State(Start, ps, [], 0, 0)
  }

  /** The idle branch: idle until the next process to admit arrives, and
      admit it. */
  function Enter(s: State): (r: State)
    requires s.next < |s.ps|
    ensures var t := s.ps[s.next].arrival;
      && r.tl.gantt == s.tl.gantt + [GanttEntry(Idle, s.tl.now, t)]
      && r.tl.now == t && r.tl.idle == s.tl.idle + (t - s.tl.now)
    ensures r.queue == s.queue + [s.next] && r.next == s.next + 1
    ensures r.ps == s.ps && r.completed == s.completed
  {
    State(IdleUntil(s.tl, s.ps[s.next].arrival), s.ps, s.queue + [s.next], s.next + 1, s.completed)
  }

  /** One turn: pop the head, run it for at most one quantum, admit the
      arrivals, then requeue the head or record its completion. */
  function Slice(s: State, quantum: int): (r: State)
    requires WellFormed(s) && |s.queue| > 0
    ensures var cur := s.queue[0];
      var d := Min(quantum, s.ps[cur].remaining);
      && r.tl.gantt == s.tl.gantt + [GanttEntry(Ran(cur), s.tl.now, s.tl.now + d)]
      && r.tl.now == s.tl.now + d && r.tl.idle == s.tl.idle
      && |r.ps| == |s.ps| && r.ps[cur].remaining == s.ps[cur].remaining - d
      && (forall j :: 0 <= j < |s.ps| && j != cur ==> r.ps[j] == s.ps[j])
      && (r.ps[cur].remaining > 0 ==> r.ps[cur] == s.ps[cur].(remaining := s.ps[cur].remaining - d) && r.completed == s.completed)
      && (r.ps[cur].remaining <= 0 ==> r.ps[cur] == Complete(s.ps[cur].(remaining := 0), r.tl.now) && r.completed == s.completed + 1)
    ensures var cur := s.queue[0];
      && s.next <= r.next <= |s.ps|
      && (r.ps[cur].remaining > 0 ==> r.queue == s.queue[1..] + Range(s.next, r.next) + [cur])
      && (r.ps[cur].remaining <= 0 ==> r.queue == s.queue[1..] + Range(s.next, r.next))
      && (forall j :: s.next <= j < r.next ==> s.ps[j].arrival <= r.tl.now)
      && (r.next == |s.ps| || r.tl.now < s.ps[r.next].arrival)
  {
    var cur := s.queue[0];
    var p := s.ps[cur];
    var d := Min(quantum, p.remaining);
    var tl := Run(s.tl, cur, d);
    var p' := p.(remaining := p.remaining - d);
    var a := Admit(s.ps, s.queue[1..], s.next, tl.now);
    if p'.remaining > 0 then State(tl, s.ps[cur := p'], a.0 + [cur], a.1, s.completed)
    else State(tl, s.ps[cur := Complete(p', tl.now)], a.0, a.1, s.completed + 1)
  }

  /** Work left: the positive remaining times, plus one for each process not
      completed. */
  function SumRemaining(ps: seq<Process>): nat {
    if |ps| == 0 then 0 else SumRemaining(ps[..|ps| - 1]) + Max(0, ps[|ps| - 1].remaining)
  }

  lemma {:induction false} SumRemainingUpdate(ps: seq<Process>, i: nat, p: Process)
    requires i < |ps|
    ensures SumRemaining(ps[i := p]) == SumRemaining(ps) - Max(0, ps[i].remaining) + Max(0, p.remaining)
    decreases |ps|
  {
    var n := |ps| - 1;
    if i < n {
      assert ps[i := p][..n] == ps[..n][i := p];
      SumRemainingUpdate(ps[..n], i, p);
    } else {
      assert ps[i := p][..n] == ps[..n];
    }
  }

  function Work(s: State): nat
    requires WellFormed(s)
  {
    SumRemaining(s.ps) + (|s.ps| - s.completed)
  }

  lemma EnterKeeps(s: State)
    requires WellFormed(s) && |s.queue| == 0 && s.completed < |s.ps|
    ensures s.next < |s.ps|
    ensures WellFormed(Enter(s)) && Work(Enter(s)) == Work(s) && |Enter(s).queue| > 0
  {
  }

  lemma SliceShrinks(s: State, quantum: int)
    requires quantum >= 1 && WellFormed(s) && |s.queue| > 0
    ensures WellFormed(Slice(s, quantum)) && Work(Slice(s, quantum)) < Work(s)
  {
    var cur, r := s.queue[0], Slice(s, quantum);
    assert r.ps == s.ps[cur := r.ps[cur]];
    SumRemainingUpdate(s.ps, cur, r.ps[cur]);
  }

  /** The scheduling loop, from state `s` until every process is completed. */
  function Loop(s: State, quantum: int): (r: State)
    requires quantum >= 1 && WellFormed(s)
    ensures WellFormed(r) && |r.ps| == |s.ps|
    ensures r.completed == r.next == |r.ps| && |r.queue| == 0
    decreases Work(s), if |s.queue| == 0 then 1 else 0
  {
    if s.completed >= |s.ps| then s
    else if |s.queue| == 0 then
      EnterKeeps(s);
      Loop(Enter(s), quantum)
    else
      SliceShrinks(s, quantum);
      Loop(Slice(s, quantum), quantum)
  }

  /** The chart entry `x`, appended after `prior`, follows the round-robin
      rule for the sorted copies `orig`. An IDLE entry covers a positive span
      that begins once every process that has run is finished, and ends at the
      earliest arrival among those that have not run. A process entry runs a
      process that is not finished, after every process ahead of it in the
      sorted list has had its first turn, for the quantum or its remaining
      time, whichever is less. */
  ghost predicate Turn(orig: seq<Process>, quantum: int, prior: seq<GanttEntry>, x: GanttEntry) {
    match x.slot
    case Idle =>
      && x.start < x.end
      && (forall j :: 0 <= j < |orig| && j in Runs(prior) ==> RunTime(prior, j) == orig[j].remaining)
      && (forall j :: 0 <= j < |orig| && j !in Runs(prior) ==> x.end <= orig[j].arrival)
      && (exists j :: 0 <= j < |orig| && j !in Runs(prior) && orig[j].arrival == x.end)
    case Ran(i) =>
      && i < |orig|
      && (forall j :: 0 <= j < i ==> j in Runs(prior))
      && (i !in Runs(prior) || RunTime(prior, i) < orig[i].remaining)
      && x.Length() == Min(quantum, orig[i].remaining - RunTime(prior, i))
  }

  ghost predicate AllTurns(orig: seq<Process>, quantum: int, g: seq<GanttEntry>)
    decreases |g|
  {
    |g| == 0 || (AllTurns(orig, quantum, Front(g)) && Turn(orig, quantum, Front(g), Last(g)))
  }

  lemma {:induction false} TurnAt(orig: seq<Process>, quantum: int, g: seq<GanttEntry>)
    requires AllTurns(orig, quantum, g)
    ensures forall e :: 0 <= e < |g| ==> Turn(orig, quantum, g[..e], g[e])
    decreases |g|
  {
    if |g| > 0 {
      var f := Front(g);
      TurnAt(orig, quantum, f);
      forall e | 0 <= e < |g|
        ensures Turn(orig, quantum, g[..e], g[e])
      {
        if e < |f| {
          assert f[..e] == g[..e] && f[e] == g[e];
        } else {
          assert g[..e] == f;
        }
      }
    }
  }

  /** Every process entry starts once its process has arrived. */
  ghost predicate StartsAfterArrival(orig: seq<Process>, g: seq<GanttEntry>) {
    forall e :: 0 <= e < |g| && g[e].slot.Ran? && g[e].slot.index < |orig| ==>
      orig[g[e].slot.index].arrival <= g[e].start
  }

  /** No process asks for negative time. */
  ghost predicate NonNegative(ps: seq<Process>) {
    forall i :: 0 <= i < |ps| ==> ps[i].remaining >= 0
  }

  /** A completed process: nothing left, it ran, and its record agrees with
      the chart. */
  ghost predicate Done(p: Process, g: seq<GanttEntry>, i: nat) {
    p.remaining == 0 && i in Runs(g) && Identities(p) && p.finish == LastEnd(g, i)
  }

  ghost predicate Distinct(q: seq<nat>) {
    forall a, b :: 0 <= a < b < |q| ==> q[a] != q[b]
  }

  ghost predicate Counts(orig: seq<Process>, s: State) {
    |s.ps| == |orig| && WellFormed(s) && Distinct(s.queue) && RunsWithin(s.tl.gantt, |orig|)
  }

  /** Where each process stands: not admitted and untouched, queued, or
      completed; its remaining time is what it started with less its run
      time. */
  ghost predicate Records(orig: seq<Process>, s: State) {
    && |s.ps| == |orig|
    && (forall i :: 0 <= i < |orig| ==> SameDescriptor(s.ps[i], orig[i]))
    && (forall i :: 0 <= i < |orig| ==> s.ps[i].remaining + RunTime(s.tl.gantt, i) == orig[i].remaining)
    && (forall i :: s.next <= i < |orig| ==> s.ps[i] == orig[i] && i !in Runs(s.tl.gantt))
    && (forall i :: 0 <= i < s.next && i < |orig| && i !in s.queue ==> Done(s.ps[i], s.tl.gantt, i))
    && (forall k :: 0 <= k < |s.queue| && s.queue[k] < |orig| && s.queue[k] in Runs(s.tl.gantt) ==>
          s.ps[s.queue[k]].remaining >= 1)
  }

  /** With an empty queue the next process to admit has not arrived; with no
      negative times, every admitted process has arrived. */
  ghost predicate Clock(orig: seq<Process>, s: State) {
    && |s.ps| == |orig|
    && (|s.queue| == 0 && s.next < |orig| ==> s.tl.now < orig[s.next].arrival)
    && (NonNegative(orig) ==> forall i :: 0 <= i < |orig| ==> s.ps[i].remaining >= 0)
    && (NonNegative(orig) ==> forall i :: 0 <= i < s.next && i < |orig| ==> orig[i].arrival <= s.tl.now)
  }

  /** Every process ahead of the `k`-th queued one in the sorted list has run
      or is queued before it. */
  ghost predicate AheadServed(s: State, k: nat)
    requires k < |s.queue|
  {
    forall j :: 0 <= j < s.queue[k] ==> j in Runs(s.tl.gantt) || j in s.queue[..k]
  }

  ghost predicate Fifo(s: State) {
    forall k :: 0 <= k < |s.queue| ==> AheadServed(s, k)
  }

  ghost predicate Timing(orig: seq<Process>, quantum: int, s: State) {
    && Consistent(s.tl) && AllTurns(orig, quantum, s.tl.gantt)
    && (NonNegative(orig) ==> StartsAfterArrival(orig, s.tl.gantt))
  }

  ghost predicate Inv(orig: seq<Process>, quantum: int, s: State) {
    && SortedByArrival(orig) && Counts(orig, s) && Records(orig, s)
    && Clock(orig, s) && Fifo(s) && Timing(orig, quantum, s)
  }

  lemma EnterRecords(orig: seq<Process>, s: State)
    requires Counts(orig, s) && Records(orig, s) && |s.queue| == 0 && s.completed < |s.ps|
    ensures Counts(orig, Enter(s)) && Records(orig, Enter(s))
  {
    var r := Enter(s);
    forall i | 0 <= i < r.next && i < |orig| && i !in r.queue
      ensures Done(r.ps[i], r.tl.gantt, i)
    {
      assert i < s.next && i !in s.queue;
    }
  }

  lemma EnterClock(orig: seq<Process>, s: State)
    requires Counts(orig, s) && Records(orig, s) && Clock(orig, s) && |s.queue| == 0 && s.completed < |s.ps|
    ensures Clock(orig, Enter(s))
  {
    assert SameDescriptor(s.ps[s.next], orig[s.next]);
  }

  lemma EnterFifo(orig: seq<Process>, s: State)
    requires Counts(orig, s) && Records(orig, s) && |s.queue| == 0 && s.completed < |s.ps|
    ensures Fifo(Enter(s))
  {
    var r := Enter(s);
    forall j | 0 <= j < r.queue[0]
      ensures j in Runs(r.tl.gantt)
    {
      assert j !in s.queue;
    }
    assert AheadServed(r, 0);
  }

  lemma EnterTurn(orig: seq<Process>, quantum: int, s: State)
    requires SortedByArrival(orig) && Counts(orig, s) && Records(orig, s) && Clock(orig, s)
    requires |s.queue| == 0 && s.completed < |s.ps|
    ensures Turn(orig, quantum, s.tl.gantt, GanttEntry(Idle, s.tl.now, s.ps[s.next].arrival))
  {
    var g := s.tl.gantt;
    var x := GanttEntry(Idle, s.tl.now, s.ps[s.next].arrival);
    assert SameDescriptor(s.ps[s.next], orig[s.next]);
    forall j | 0 <= j < |orig| && j in Runs(g)
      ensures RunTime(g, j) == orig[j].remaining
    {
      assert j < s.next && j !in s.queue;
    }
    assert forall j :: 0 <= j < s.next && j < |orig| ==> j !in s.queue && j in Runs(g);
  }

  lemma EnterTiming(orig: seq<Process>, quantum: int, s: State)
    requires Inv(orig, quantum, s) && |s.queue| == 0 && s.completed < |s.ps|
    ensures Timing(orig, quantum, Enter(s))
  {
    var x := GanttEntry(Idle, s.tl.now, s.ps[s.next].arrival);
    EnterTurn(orig, quantum, s);
    FrontOfAppend(s.tl.gantt, x);
  }

  lemma EnterInv(orig: seq<Process>, quantum: int, s: State)
    requires Inv(orig, quantum, s) && |s.queue| == 0 && s.completed < |s.ps|
    ensures Inv(orig, quantum, Enter(s))
  {
    EnterRecords(orig, s);
    EnterClock(orig, s);
    EnterFifo(orig, s);
    EnterTiming(orig, quantum, s);
  }

  /** The process at the head of the queue runs for this long. */
  function SliceLength(s: State, quantum: int): int
    requires WellFormed(s) && |s.queue| > 0
  {
    Min(quantum, s.ps[s.queue[0]].remaining)
  }

  /** The queue and admission count once the arrivals of a turn are in. */
  function Admitted(s: State, quantum: int): (seq<nat>, nat)
    requires WellFormed(s) && |s.queue| > 0
  {
    Admit(s.ps, s.queue[1..], s.next, s.tl.now + SliceLength(s, quantum))
  }

  lemma SliceParts(s: State, quantum: int)
    requires WellFormed(s) && |s.queue| > 0
    ensures var r := Slice(s, quantum);
      var cur, d, a := s.queue[0], SliceLength(s, quantum), Admitted(s, quantum);
      && r.tl == Run(s.tl, cur, d)
      && r.next == a.1
      && r.ps[cur].remaining == s.ps[cur].remaining - d
      && (s.ps[cur].remaining - d > 0 ==> r.queue == a.0 + [cur] && r.ps[cur] == s.ps[cur].(remaining := s.ps[cur].remaining - d))
      && (s.ps[cur].remaining - d <= 0 ==> r.queue == a.0 && r.ps[cur] == Complete(s.ps[cur].(remaining := s.ps[cur].remaining - d), r.tl.now))
      && (forall i :: 0 <= i < |s.ps| && i != cur ==> r.ps[i] == s.ps[i])
      && |r.ps| == |s.ps|
  {
  }

  lemma SliceWellFormed(s: State, quantum: int)
    requires WellFormed(s) && |s.queue| > 0
    ensures WellFormed(Slice(s, quantum))
  {
    SliceParts(s, quantum);
    var a := Admitted(s, quantum);
    forall k | 0 <= k < |a.0|
      ensures a.0[k] < a.1
    {
      if k < |s.queue| - 1 {
        assert a.0[k] == s.queue[k + 1];
      }
    }
  }

  /** Who is queued after the arrivals of a turn: the rest of the old queue,
      then the newly admitted processes. */
  lemma AdmittedQueue(s: State, quantum: int)
    requires WellFormed(s) && |s.queue| > 0
    ensures var a := Admitted(s, quantum);
      && (forall i :: s.next <= i < a.1 ==> i in a.0)
      && (forall k :: 1 <= k < |s.queue| ==> s.queue[k] in a.0)
      && (forall x :: x in a.0 ==> x in s.queue[1..] || s.next <= x < a.1)
  {
    var a := Admitted(s, quantum);
    var rest := s.queue[1..];
    forall i | s.next <= i < a.1
      ensures i in a.0
    {
      assert a.0[|rest| + (i - s.next)] == i;
    }
    forall k | 1 <= k < |s.queue|
      ensures s.queue[k] in a.0
    {
      assert a.0[k - 1] == s.queue[k];
    }
  }

  lemma DistinctAppend(a: seq<nat>, b: seq<nat>)
    requires Distinct(a) && Distinct(b) && forall x :: x in a ==> x !in b
    ensures Distinct(a + b)
  {
    forall x, y | 0 <= x < y < |a + b|
      ensures (a + b)[x] != (a + b)[y]
    {
      if x < |a| && y >= |a| {
        assert (a + b)[x] in a && (a + b)[y] == b[y - |a|];
      }
    }
  }

  /** The queue after admission holds no position twice, and not the head
      that was just popped. */
  lemma AdmittedDistinct(s: State, quantum: int)
    requires WellFormed(s) && Distinct(s.queue) && |s.queue| > 0
    ensures Distinct(Admitted(s, quantum).0) && s.queue[0] !in Admitted(s, quantum).0
  {
    var cur, rest := s.queue[0], s.queue[1..];
    var a := Admitted(s, quantum);
    AdmittedQueue(s, quantum);
    assert Distinct(rest) by {
      forall x, y | 0 <= x < y < |rest|
        ensures rest[x] != rest[y]
      {
        assert rest[x] == s.queue[x + 1] && rest[y] == s.queue[y + 1];
      }
    }
    var admitted := Range(s.next, a.1);
    assert forall x :: x in rest ==> x < s.next;
    DistinctAppend(rest, admitted);
    assert cur !in rest by {
      forall m | 0 <= m < |rest|
        ensures rest[m] != cur
      {
        assert rest[m] == s.queue[m + 1];
      }
    }
  }

  lemma SliceCounts(orig: seq<Process>, quantum: int, s: State)
    requires quantum >= 1 && Counts(orig, s) && |s.queue| > 0
    ensures Counts(orig, Slice(s, quantum))
  {
    var a := Admitted(s, quantum);
    SliceParts(s, quantum);
    SliceWellFormed(s, quantum);
    AdmittedDistinct(s, quantum);
    DistinctAppend(a.0, [s.queue[0]]);
  }

  /** Descriptors, remaining time and the untouched tail survive a turn. */
  lemma SliceKept(orig: seq<Process>, quantum: int, s: State)
    requires quantum >= 1 && Counts(orig, s) && Records(orig, s) && |s.queue| > 0
    ensures var r := Slice(s, quantum);
      && (forall i :: 0 <= i < |orig| ==> SameDescriptor(r.ps[i], orig[i]))
      && (forall i :: 0 <= i < |orig| ==> r.ps[i].remaining + RunTime(r.tl.gantt, i) == orig[i].remaining)
      && (forall i :: r.next <= i < |orig| ==> r.ps[i] == orig[i] && i !in Runs(r.tl.gantt))
  {
    SliceParts(s, quantum);
  }

  /** The admitted processes that are not queued after a turn are completed. */
  lemma SliceDone(orig: seq<Process>, quantum: int, s: State)
    requires quantum >= 1 && Counts(orig, s) && Records(orig, s) && |s.queue| > 0
    ensures var r := Slice(s, quantum);
      forall i :: 0 <= i < r.next && i < |orig| && i !in r.queue ==> Done(r.ps[i], r.tl.gantt, i)
  {
    var r := Slice(s, quantum);
    var cur := s.queue[0];
    var a := Admitted(s, quantum);
    SliceParts(s, quantum);
    AdmittedQueue(s, quantum);
    assert a.0 <= r.queue;
    forall i | 0 <= i < r.next && i < |orig| && i !in r.queue && i != cur
      ensures Done(r.ps[i], r.tl.gantt, i)
    {
      assert i < s.next && i !in s.queue;
    }
  }

  /** A queued process that has run has time left. */
  lemma SliceQueued(orig: seq<Process>, quantum: int, s: State)
    requires quantum >= 1 && Counts(orig, s) && Records(orig, s) && |s.queue| > 0
    ensures var r := Slice(s, quantum);
      forall k :: 0 <= k < |r.queue| && r.queue[k] < |orig| && r.queue[k] in Runs(r.tl.gantt) ==>
        r.ps[r.queue[k]].remaining >= 1
  {
  }

  lemma SliceClock(orig: seq<Process>, quantum: int, s: State)
    requires quantum >= 1 && Counts(orig, s) && Records(orig, s) && Clock(orig, s) && |s.queue| > 0
    ensures Clock(orig, Slice(s, quantum))
  {
    var r := Slice(s, quantum);
    var cur, a := s.queue[0], Admitted(s, quantum);
    SliceParts(s, quantum);
    if a.1 < |orig| {
      assert SameDescriptor(s.ps[a.1], orig[a.1]);
    }
    if NonNegative(orig) {
      assert s.ps[cur].remaining >= 0;
      forall i | 0 <= i < a.1 && i < |orig|
        ensures orig[i].arrival <= r.tl.now
      {
        assert SameDescriptor(s.ps[i], orig[i]);
      }
    }
  }

  /** The processes still queued from before the turn keep their standing. */
  lemma AheadOfRest(orig: seq<Process>, quantum: int, s: State, k: nat)
    requires quantum >= 1 && Counts(orig, s) && Records(orig, s) && Fifo(s) && |s.queue| > 0
    requires k < |s.queue| - 1
    ensures k < |Slice(s, quantum).queue| && AheadServed(Slice(s, quantum), k)
  {
    var r := Slice(s, quantum);
    var a := Admitted(s, quantum);
    SliceParts(s, quantum);
    assert AheadServed(s, k + 1);
    assert r.queue[k] == s.queue[k + 1];
    assert s.queue[..k + 1] == [s.queue[0]] + r.queue[..k];
  }

  /** The newly admitted processes come after everything ahead of them. */
  lemma AheadOfAdmitted(orig: seq<Process>, quantum: int, s: State, k: nat)
    requires quantum >= 1 && Counts(orig, s) && Records(orig, s) && |s.queue| > 0
    requires |s.queue| - 1 <= k < |Admitted(s, quantum).0|
    ensures k < |Slice(s, quantum).queue| && AheadServed(Slice(s, quantum), k)
  {
    var r := Slice(s, quantum);
    var cur, rest := s.queue[0], s.queue[1..];
    var a := Admitted(s, quantum);
    SliceParts(s, quantum);
    assert a.0 <= r.queue;
    var i := r.queue[k];
    assert i == s.next + (k - |rest|);
    forall j | 0 <= j < i
      ensures j in Runs(r.tl.gantt) || j in r.queue[..k]
    {
      if j >= s.next {
        assert r.queue[|rest| + (j - s.next)] == j;
      } else if j in rest {
        var m :| 0 <= m < |rest| && rest[m] == j;
        assert r.queue[m] == j;
      } else if j != cur {
        assert j !in s.queue;
      }
    }
  }

  /** A requeued process has had every process ahead of it run. */
  lemma AheadOfRequeued(orig: seq<Process>, quantum: int, s: State, k: nat)
    requires quantum >= 1 && Counts(orig, s) && Records(orig, s) && Fifo(s) && |s.queue| > 0
    requires |Admitted(s, quantum).0| <= k < |Slice(s, quantum).queue|
    ensures AheadServed(Slice(s, quantum), k)
  {
    var r := Slice(s, quantum);
    SliceParts(s, quantum);
    assert AheadServed(s, 0);
    assert r.queue[k] == s.queue[0];
  }

  lemma SliceFifo(orig: seq<Process>, quantum: int, s: State)
    requires quantum >= 1 && Counts(orig, s) && Records(orig, s) && Fifo(s) && |s.queue| > 0
    ensures Fifo(Slice(s, quantum))
  {
    var r := Slice(s, quantum);
    forall k | 0 <= k < |r.queue|
      ensures AheadServed(r, k)
    {
      if k < |s.queue| - 1 {
        AheadOfRest(orig, quantum, s, k);
      } else if k < |Admitted(s, quantum).0| {
        AheadOfAdmitted(orig, quantum, s, k);
      } else {
        AheadOfRequeued(orig, quantum, s, k);
      }
    }
  }

  lemma SliceTurn(orig: seq<Process>, quantum: int, s: State)
    requires quantum >= 1 && Counts(orig, s) && Records(orig, s) && Fifo(s) && |s.queue| > 0
    ensures var cur := s.queue[0];
      Turn(orig, quantum, s.tl.gantt, GanttEntry(Ran(cur), s.tl.now, s.tl.now + SliceLength(s, quantum)))
  {
    var cur := s.queue[0];
    assert AheadServed(s, 0);
    assert s.queue[..0] == [];
  }

  lemma SliceTiming(orig: seq<Process>, quantum: int, s: State)
    requires quantum >= 1 && Inv(orig, quantum, s) && |s.queue| > 0
    ensures Timing(orig, quantum, Slice(s, quantum))
  {
    var cur := s.queue[0];
    var x := GanttEntry(Ran(cur), s.tl.now, s.tl.now + SliceLength(s, quantum));
    SliceParts(s, quantum);
    SliceTurn(orig, quantum, s);
    FrontOfAppend(s.tl.gantt, x);
  }

  lemma SliceInv(orig: seq<Process>, quantum: int, s: State)
    requires quantum >= 1 && Inv(orig, quantum, s) && |s.queue| > 0
    ensures Inv(orig, quantum, Slice(s, quantum))
  {
    SliceCounts(orig, quantum, s);
    SliceKept(orig, quantum, s);
    SliceDone(orig, quantum, s);
    SliceQueued(orig, quantum, s);
    SliceClock(orig, quantum, s);
    SliceFifo(orig, quantum, s);
    SliceTiming(orig, quantum, s);
  }

  lemma Begins(orig: seq<Process>, quantum: int)
    requires SortedByArrival(orig)
    ensures Inv(orig, quantum, Initial(orig))
  {
    BeginsQueue(orig);
    BeginsChart(orig, quantum);
  }

  /** At the start at most the first process is queued and nothing has run. */
  lemma BeginsQueue(orig: seq<Process>)
    ensures var s := Initial(orig);
      Counts(orig, s) && Records(orig, s) && Clock(orig, s) && Fifo(s)
  {
    InitialQueue(orig);
    BeginsCounts(orig);
    BeginsRecords(orig);
    BeginsClock(orig);
    BeginsFifo(orig);
  }

  lemma BeginsCounts(orig: seq<Process>)
    requires var s := Initial(orig); Runs(s.tl.gantt) == [] && s.queue == (if s.next == 0 then [] else [0])
    ensures Counts(orig, Initial(orig))
  {
  }

  lemma BeginsRecords(orig: seq<Process>)
    requires var s := Initial(orig); Runs(s.tl.gantt) == [] && s.queue == (if s.next == 0 then [] else [0])
    ensures Records(orig, Initial(orig))
  {
  }

  lemma BeginsClock(orig: seq<Process>)
    requires var s := Initial(orig); Runs(s.tl.gantt) == [] && s.queue == (if s.next == 0 then [] else [0])
    ensures Clock(orig, Initial(orig))
  {
  }

  lemma BeginsFifo(orig: seq<Process>)
    requires var s := Initial(orig); Runs(s.tl.gantt) == [] && s.queue == (if s.next == 0 then [] else [0])
    ensures Fifo(Initial(orig))
  {
    var s := Initial(orig);
    if s.next == 1 {
      assert s.queue[..0] == [];
    }
  }

  lemma InitialQueue(orig: seq<Process>)
    ensures var s := Initial(orig);
      && Runs(s.tl.gantt) == [] && s.tl.gantt == []
      && s.queue == (if s.next == 0 then [] else [0])
  {
  }

  lemma BeginsChart(orig: seq<Process>, quantum: int)
    ensures Timing(orig, quantum, Initial(orig))
  {
  }

  /** The loop keeps the invariant and stops with every process completed. */
  lemma {:induction false} LoopKeeps(orig: seq<Process>, quantum: int, s: State)
    requires quantum >= 1 && Inv(orig, quantum, s)
    ensures Inv(orig, quantum, Loop(s, quantum)) && Loop(s, quantum).completed >= |orig|
    decreases Work(s), if |s.queue| == 0 then 1 else 0
  {
    if s.completed < |s.ps| {
      if |s.queue| == 0 {
        EnterKeeps(s);
        EnterInv(orig, quantum, s);
        LoopKeeps(orig, quantum, Enter(s));
      } else {
        SliceShrinks(s, quantum);
        SliceInv(orig, quantum, s);
        LoopKeeps(orig, quantum, Slice(s, quantum));
      }
    }
  }

  /** The copies taken before scheduling: same descriptors and remaining
      times, completion fields at zero. */
  function Copies(ps: seq<Process>): (r: seq<Process>)
    ensures |r| == |ps| && forall i :: 0 <= i < |ps| ==> r[i] == Copy(ps[i])
  {
    seq(|ps|, i requires 0 <= i < |ps| => Copy(ps[i]))
  }

  /** The copies in admission order: stably sorted by arrival. */
  function Admission(procs: seq<Process>): seq<Process> {
    SortByArrival(Copies(procs))
  }

  /** The loop run from the initial state. */
  function Final(procs: seq<Process>, quantum: int): State
    requires quantum >= 1
  {
    Loop(Initial(Admission(procs)), quantum)
  }

  lemma FinalInv(procs: seq<Process>, quantum: int)
    requires quantum >= 1
    ensures var s := Final(procs, quantum);
      && Inv(Admission(procs), quantum, s)
      && s.completed == |procs| && s.next == |procs| && |s.queue| == 0
  {
    var orig := Admission(procs);
    Begins(orig, quantum);
    LoopKeeps(orig, quantum, Initial(orig));
  }

  /** Round robin scheduling of `procs` with time quantum `quantum`. The
      returned processes are copies of `procs`, stably sorted by arrival, with
      their completion recorded; chart entries refer to positions in that
      returned list. */
  function Rr(procs: seq<Process>, quantum: int): (r: Report)
    requires quantum >= 1
    ensures |r.processes| == |procs| && SortedByArrival(r.processes)
    ensures forall k :: 0 <= k < |procs| ==>
              SameDescriptor(r.processes[k], procs[Order(Copies(procs))[k]]) && r.processes[k].remaining == 0
    ensures Contiguous(r.gantt, 0, r.totalTime) && IdleGapsPositive(r.gantt)
    ensures r.totalIdle == IdleTime(r.gantt)
    ensures r.totalTime == Total(Admission(procs), Remaining) + r.totalIdle
    ensures RunsWithin(r.gantt, |procs|)
    ensures forall k :: 0 <= k < |procs| ==>
              k in Runs(r.gantt) && RunTime(r.gantt, k) == procs[Order(Copies(procs))[k]].remaining
    ensures forall k :: 0 <= k < |procs| ==>
              Identities(r.processes[k]) && r.processes[k].finish == LastEnd(r.gantt, k)
    ensures r.totalTurnaround == Total(r.processes, Finish) - Total(r.processes, Arrival)
    ensures r.totalWaiting == r.totalTurnaround - Total(r.processes, Burst)
    ensures (forall k :: 0 <= k < |procs| ==> r.processes[k].waiting >= 0) ==> r.totalWaiting >= 0
  {
    var s := Final(procs, quantum);
    FinalInv(procs, quantum);
    var r := GetResults(s.ps, s.tl.gantt, s.tl.now, s.tl.idle);
    RrOrder(procs, quantum, s, r);
    RrChart(procs, quantum, s, r);
    RrFinished(procs, quantum, s, r);
    r
  }

  /** Every chart entry follows the round-robin rule. */
  lemma RrTurns(procs: seq<Process>, quantum: int)
    requires quantum >= 1
    ensures var r := Rr(procs, quantum);
      forall e :: 0 <= e < |r.gantt| ==> Turn(Admission(procs), quantum, r.gantt[..e], r.gantt[e])
  {
    FinalInv(procs, quantum);
    TurnAt(Admission(procs), quantum, Final(procs, quantum).tl.gantt);
  }

  /** Unless some process asks for negative time, no process runs before it
      arrives. */
  lemma RrArrivals(procs: seq<Process>, quantum: int)
    requires quantum >= 1
    ensures var r := Rr(procs, quantum);
      (forall i :: 0 <= i < |procs| ==> procs[i].remaining >= 0) ==>
        forall e :: 0 <= e < |r.gantt| && r.gantt[e].slot.Ran? ==>
          r.processes[r.gantt[e].slot.index].arrival <= r.gantt[e].start
  {
    FinalInv(procs, quantum);
    RrArrived(procs, quantum, Final(procs, quantum), Rr(procs, quantum));
  }

  lemma RrOrder(procs: seq<Process>, quantum: int, s: State, r: Report)
    requires Inv(Admission(procs), quantum, s) && Reports(r, s.ps, s.tl)
    ensures |r.processes| == |procs| && SortedByArrival(r.processes)
    ensures forall k :: 0 <= k < |procs| ==>
              SameDescriptor(r.processes[k], procs[Order(Copies(procs))[k]])
  {
    var orig := Admission(procs);
    forall a, b | 0 <= a < b < |r.processes|
      ensures r.processes[a].arrival <= r.processes[b].arrival
    {
      assert SameDescriptor(s.ps[a], orig[a]) && SameDescriptor(s.ps[b], orig[b]);
    }
    forall k | 0 <= k < |procs|
      ensures SameDescriptor(r.processes[k], procs[Order(Copies(procs))[k]])
    {
      assert SameDescriptor(s.ps[k], orig[k]);
    }
  }

  lemma RrChart(procs: seq<Process>, quantum: int, s: State, r: Report)
    requires Inv(Admission(procs), quantum, s) && Reports(r, s.ps, s.tl)
    requires s.next == |procs| && |s.queue| == 0
    ensures Contiguous(r.gantt, 0, r.totalTime) && IdleGapsPositive(r.gantt)
    ensures r.totalIdle == IdleTime(r.gantt)
    ensures r.totalTime == Total(Admission(procs), Remaining) + r.totalIdle
  {
    var orig := Admission(procs);
    var g := s.tl.gantt;
    TiledIsContiguous(g, 0, s.tl.now);
    TiledSpan(g, 0, s.tl.now);
    forall i | 0 <= i < |orig|
      ensures RunTime(g, i) == Remaining(orig[i])
    {
      assert i !in s.queue;
    }
    BusyIsTotal(g, orig, Remaining);
    TurnAt(orig, quantum, g);
  }

  lemma RrFinished(procs: seq<Process>, quantum: int, s: State, r: Report)
    requires Inv(Admission(procs), quantum, s) && Reports(r, s.ps, s.tl)
    requires s.next == |procs| && |s.queue| == 0
    ensures forall k :: 0 <= k < |procs| ==> r.processes[k].remaining == 0
    ensures forall k :: 0 <= k < |procs| ==>
              k in Runs(r.gantt) && RunTime(r.gantt, k) == procs[Order(Copies(procs))[k]].remaining
    ensures forall k :: 0 <= k < |procs| ==>
              Identities(r.processes[k]) && r.processes[k].finish == LastEnd(r.gantt, k)
  {
    var orig := Admission(procs);
    forall k | 0 <= k < |procs|
      ensures Done(s.ps[k], s.tl.gantt, k)
      ensures RunTime(r.gantt, k) == procs[Order(Copies(procs))[k]].remaining
    {
      assert k !in s.queue;
      assert orig[k] == Copy(procs[Order(Copies(procs))[k]]);
    }
  }

  lemma RrArrived(procs: seq<Process>, quantum: int, s: State, r: Report)
    requires Inv(Admission(procs), quantum, s) && Reports(r, s.ps, s.tl)
    ensures (forall i :: 0 <= i < |procs| ==> procs[i].remaining >= 0) ==>
              forall e :: 0 <= e < |r.gantt| && r.gantt[e].slot.Ran? ==>
                r.processes[r.gantt[e].slot.index].arrival <= r.gantt[e].start
  {
    var orig := Admission(procs);
    var copies := Copies(procs);
    if forall i :: 0 <= i < |procs| ==> procs[i].remaining >= 0 {
      forall k | 0 <= k < |orig|
        ensures orig[k].remaining >= 0
      {
        assert orig[k] == copies[Order(copies)[k]];
      }
      forall e | 0 <= e < |r.gantt| && r.gantt[e].slot.Ran?
        ensures r.processes[r.gantt[e].slot.index].arrival <= r.gantt[e].start
      {
        assert SameDescriptor(s.ps[r.gantt[e].slot.index], orig[r.gantt[e].slot.index]);
      }
    }
  }

  /** A process as callers build it, before the copies are taken. */
  lemma RunnableCopies(procs: seq<Process>)
    requires forall i :: 0 <= i < |procs| ==> Runnable(procs[i])
    ensures forall k :: 0 <= k < |procs| ==> Runnable(Admission(procs)[k])
  {
    var copies := Copies(procs);
    forall k | 0 <= k < |procs|
      ensures Runnable(Admission(procs)[k])
    {
      assert Admission(procs)[k] == copies[Order(copies)[k]];
    }
  }

  /** For processes as callers build them (positive burst, nothing run yet),
      every slice lasts at least one tick and at most one quantum. */
  lemma RrSlices(procs: seq<Process>, quantum: int)
    requires quantum >= 1 && forall i :: 0 <= i < |procs| ==> Runnable(procs[i])
    ensures var r := Rr(procs, quantum);
      forall e :: 0 <= e < |r.gantt| && r.gantt[e].slot.Ran? ==> 1 <= r.gantt[e].Length() <= quantum
  {
    var r := Rr(procs, quantum);
    var orig := Admission(procs);
    RunnableCopies(procs);
    RrTurns(procs, quantum);
    forall e | 0 <= e < |r.gantt| && r.gantt[e].slot.Ran?
      ensures 1 <= r.gantt[e].Length() <= quantum
    {
      SliceBounds(orig, quantum, r.gantt[..e], r.gantt[e]);
    }
  }

  lemma SliceBounds(orig: seq<Process>, quantum: int, prior: seq<GanttEntry>, x: GanttEntry)
    requires quantum >= 1 && Turn(orig, quantum, prior, x) && x.slot.Ran?
    requires forall k :: 0 <= k < |orig| ==> Runnable(orig[k])
    ensures 1 <= x.Length() <= quantum
  {
    var i := x.slot.index;
    assert Runnable(orig[i]);
    if i !in Runs(prior) {
      AbsentRunTime(prior, i);
    }
  }

  /** For processes as callers build them, each runs for exactly its burst,
      no waiting time is negative, and the total time is the total burst plus
      the idle time. */
  lemma RrWaiting(procs: seq<Process>, quantum: int)
    requires quantum >= 1 && forall i :: 0 <= i < |procs| ==> Runnable(procs[i])
    ensures var r := Rr(procs, quantum);
      && (forall k :: 0 <= k < |procs| ==> RunTime(r.gantt, k) == r.processes[k].burst)
      && (forall k :: 0 <= k < |procs| ==> r.processes[k].waiting >= 0)
      && r.totalTime == Total(r.processes, Burst) + r.totalIdle
      && r.totalWaiting >= 0
  {
    var r := Rr(procs, quantum);
    var g := r.gantt;
    RrSlices(procs, quantum);
    RrArrivals(procs, quantum);
    TiledIsContiguous(g, 0, r.totalTime);
    TiledSpan(g, 0, r.totalTime);
    forall k | 0 <= k < |procs|
      ensures RunTime(g, k) == r.processes[k].burst
    {
      assert Runnable(procs[Order(Copies(procs))[k]]);
    }
    BusyIsTotalBurst(g, r.processes);
    assert EntriesNonNegative(g);
    forall k | 0 <= k < |procs|
      ensures r.processes[k].waiting >= 0
    {
      RunTimeFits(g, 0, r.totalTime, k, r.processes[k].arrival);
    }
  }
}

=== FILE: types.dfy ===
/** The simulator's records: processes, Gantt entries, and the clock-and-chart
    state that every scheduler threads through its loop. */
module Types {

  datatype Option<T> = None | Some(value: T)

  function Max(a: int, b: int): int { if a < b then b else a }
  function Min(a: int, b: int): int { if a < b then a else b }

  /** A process with its descriptor (id, arrival, burst, priority) and the run
      state a scheduler fills in. */
  datatype Process = Process(
    id: string,
    arrival: int,
    burst: int,
    priority: int,
    remaining: int,
    finish: int,
    turnaround: int,
    waiting: int)

  /** A newly constructed process: remaining time is the whole burst, the
      completion fields are zero. */
  function NewProcess(id: string, arrival: int, burst: int, priority: int): (p: Process)
    ensures p.id == id && p.arrival == arrival && p.burst == burst && p.priority == priority
    ensures p.remaining == burst && p.finish == 0 && p.turnaround == 0 && p.waiting == 0
    ensures Runnable(p) <==> burst >= 1
  {
    Process(id, arrival, burst, priority, burst, 0, 0, 0)
  }

  /** The copy taken before a run: same descriptor and remaining time,
      completion fields back at zero. */
  function Copy(p: Process): (c: Process)
    ensures SameDescriptor(c, p) && c.remaining == p.remaining
    ensures c.finish == 0 && c.turnaround == 0 && c.waiting == 0
    ensures Runnable(c) <==> Runnable(p)
  {
    NewProcess(p.id, p.arrival, p.burst, p.priority).(remaining := p.remaining)
  }

  predicate SameDescriptor(a: Process, b: Process) {
    a.id == b.id && a.arrival == b.arrival && a.burst == b.burst && a.priority == b.priority
  }

  /** A process as the callers build it: positive burst, nothing run yet. */
  predicate Runnable(p: Process) {
    p.burst >= 1 && p.remaining == p.burst
  }

  /** The two identities every completed process satisfies. */
  predicate Identities(p: Process) {
    p.turnaround == p.finish - p.arrival && p.waiting == p.turnaround - p.burst
  }

  /** Record completion at clock `t`. */
  function Complete(p: Process, t: int): (c: Process)
    ensures c.finish == t && Identities(c)
    ensures SameDescriptor(c, p) && c.remaining == p.remaining
  {
    var turnaround := t - p.arrival;
    p.(finish := t, turnaround := turnaround, waiting := turnaround - p.burst)
  }

  /** Who holds the CPU during a Gantt entry: nobody, or the process at
      `index` in the list the scheduler returns. */
  datatype Slot = Idle | Ran(index: nat)

  datatype GanttEntry = GanttEntry(slot: Slot, start: int, end: int) {
    function Length(): int { end - start }
  }

  const IdleLabel: string := "IDLE"

  /** The process id the chart prints for an entry. A process whose id is
      "IDLE" prints like an idle entry. */
  function Label(e: GanttEntry, ps: seq<Process>): (r: string)
    requires e.slot.Ran? ==> e.slot.index < |ps|
    ensures e.slot.Ran? ==> r == ps[e.slot.index].id
    ensures r == IdleLabel <==> e.slot.Idle? || ps[e.slot.index].id == IdleLabel
  {
    match e.slot
    case Idle => IdleLabel
    case Ran(i) => ps[i].id
  }

  /** The positions `from`, ..., `to - 1` in order. */
  function Range(from: nat, to: nat): (r: seq<nat>)
    requires from <= to
    ensures |r| == to - from && forall k :: 0 <= k < |r| ==> r[k] == from + k
  {
    seq(to - from, k => from + k)
  }

  /** Every IDLE entry covers at least one tick. */
  ghost predicate IdleGapsPositive(g: seq<GanttEntry>) {
    forall e :: 0 <= e < |g| && g[e].slot.Idle? ==> g[e].start < g[e].end
  }

  /** Every non-IDLE entry names one of the first `n` processes. */
  ghost predicate RunsWithin(g: seq<GanttEntry>, n: nat) {
    forall e :: 0 <= e < |g| && g[e].slot.Ran? ==> g[e].slot.index < n
  }

  function Last(g: seq<GanttEntry>): GanttEntry
    requires |g| > 0
  {
    g[|g| - 1]
  }

  function Front(g: seq<GanttEntry>): seq<GanttEntry>
    requires |g| > 0
  {
    g[..|g| - 1]
  }

  /** Total length of the IDLE entries. */
  function IdleTime(g: seq<GanttEntry>): int {
    if |g| == 0 then 0
    else IdleTime(Front(g)) + (if Last(g).slot.Idle? then Last(g).Length() else 0)
  }

  /** Total length of the non-IDLE entries. */
  function BusyTime(g: seq<GanttEntry>): int {
    if |g| == 0 then 0
    else BusyTime(Front(g)) + (if Last(g).slot.Ran? then Last(g).Length() else 0)
  }

  /** Total length of the entries of process `i`. */
  function RunTime(g: seq<GanttEntry>, i: nat): int {
    if |g| == 0 then 0
    else RunTime(Front(g), i) + (if Last(g).slot == Ran(i) then Last(g).Length() else 0)
  }

  /** End of the last entry of process `i` (0 when it has none). */
  function LastEnd(g: seq<GanttEntry>, i: nat): int {
    if |g| == 0 then 0
    else if Last(g).slot == Ran(i) then Last(g).end
    else LastEnd(Front(g), i)
  }

  /** The processes of the non-IDLE entries, in chart order. */
  function Runs(g: seq<GanttEntry>): seq<nat> {
    if |g| == 0 then []
    else Runs(Front(g)) + (if Last(g).slot.Ran? then [Last(g).slot.index] else [])
  }

  /** The chart tiles [from, to): read back to front, each entry ends where
      the next begins. */
  ghost predicate Tiled(g: seq<GanttEntry>, from: int, to: int) {
    if |g| == 0 then from == to
    else Tiled(Front(g), from, Last(g).start) && Last(g).end == to
  }

  /** The same property stated on positions: the first entry starts at
      `from`, each entry starts where the previous one ended, and the last
      one ends at `to`. */
  ghost predicate Contiguous(g: seq<GanttEntry>, from: int, to: int) {
    && (|g| == 0 ==> from == to)
    && (|g| > 0 ==> g[0].start == from && g[|g| - 1].end == to)
    && (forall k :: 0 <= k < |g| - 1 ==> g[k].end == g[k + 1].start)
  }

  lemma {:induction false} TiledIsContiguous(g: seq<GanttEntry>, from: int, to: int)
    ensures Tiled(g, from, to) <==> Contiguous(g, from, to)
    decreases |g|
  {
    if |g| > 0 {
      var f := Front(g);
      TiledIsContiguous(f, from, Last(g).start);
      assert forall k :: 0 <= k < |f| ==> f[k] == g[k];
    }
  }

  /** Busy plus idle time covers the whole tiled span. */
  lemma {:induction false} TiledSpan(g: seq<GanttEntry>, from: int, to: int)
    requires Tiled(g, from, to)
    ensures to - from == BusyTime(g) + IdleTime(g)
    decreases |g|
  {
    if |g| > 0 {
      TiledSpan(Front(g), from, Last(g).start);
    }
  }

  lemma FrontOfAppend(g: seq<GanttEntry>, e: GanttEntry)
    ensures Front(g + [e]) == g && Last(g + [e]) == e
  {
    assert (g + [e])[..|g|] == g;
  }

  /** Busy time is the sum, over the processes that appear, of their run time. */
  function SumRunTime(g: seq<GanttEntry>, n: nat): int {
    if n == 0 then 0 else SumRunTime(g, n - 1) + RunTime(g, n - 1)
  }

  lemma {:induction false} BusyIsSumOfRunTimes(g: seq<GanttEntry>, n: nat)
    requires RunsWithin(g, n)
    ensures BusyTime(g) == SumRunTime(g, n)
    decreases |g|
  {
    if |g| > 0 {
      var f, e := Front(g), Last(g);
      assert forall k :: 0 <= k < |f| ==> f[k] == g[k];
      assert f + [e] == g;
      BusyIsSumOfRunTimes(f, n);
      SumRunTimeStep(f, e, n);
    } else {
      NothingRanYet(g, n);
    }
  }

  lemma {:induction false} NothingRanYet(g: seq<GanttEntry>, n: nat)
    requires |g| == 0
    ensures SumRunTime(g, n) == 0
  {
    if n > 0 {
      NothingRanYet(g, n - 1);
    }
  }

  lemma {:induction false} SumRunTimeStep(g: seq<GanttEntry>, e: GanttEntry, n: nat)
    requires e.slot.Ran? ==> e.slot.index < n
    ensures SumRunTime(g + [e], n) == SumRunTime(g, n) + (if e.slot.Ran? then e.Length() else 0)
  {
    FrontOfAppend(g, e);
    if n > 0 {
      if e.slot.Ran? && e.slot.index == n - 1 {
        SumRunTimeUnmoved(g, e, n - 1);
      } else {
        SumRunTimeStep(g, e, n - 1);
      }
    }
  }

  lemma {:induction false} SumRunTimeUnmoved(g: seq<GanttEntry>, e: GanttEntry, n: nat)
    requires e.slot.Ran? ==> e.slot.index >= n
    ensures SumRunTime(g + [e], n) == SumRunTime(g, n)
  {
    FrontOfAppend(g, e);
    if n > 0 {
      SumRunTimeUnmoved(g, e, n - 1);
    }
  }

  function Burst(p: Process): int { p.burst }

  /** The sum of `f` over a list of processes. */
  function Total(ps: seq<Process>, f: Process -> int): int {
    if |ps| == 0 then 0 else Total(ps[..|ps| - 1], f) + f(ps[|ps| - 1])
  }

  /** When every process below `n` ran for exactly `f` of itself, the run
      times add up to the sum of `f`. */
  lemma {:induction false} RunTimesAddUp(g: seq<GanttEntry>, ps: seq<Process>, n: nat, f: Process -> int)
    requires n <= |ps|
    requires forall i :: 0 <= i < n ==> RunTime(g, i) == f(ps[i])
    ensures SumRunTime(g, n) == Total(ps[..n], f)
  {
    if n > 0 {
      RunTimesAddUp(g, ps, n - 1, f);
      assert ps[..n][..n - 1] == ps[..n - 1];
    }
  }

  /** Time conservation: once every process has run for exactly `f` of
      itself and nothing else ran, the busy time is the sum of `f`. */
  lemma BusyIsTotal(g: seq<GanttEntry>, ps: seq<Process>, f: Process -> int)
    requires RunsWithin(g, |ps|)
    requires forall i :: 0 <= i < |ps| ==> RunTime(g, i) == f(ps[i])
    ensures BusyTime(g) == Total(ps, f)
  {
    BusyIsSumOfRunTimes(g, |ps|);
    RunTimesAddUp(g, ps, |ps|, f);
    assert ps[..|ps|] == ps;
  }

  /** Time conservation for whole bursts. */
  lemma BusyIsTotalBurst(g: seq<GanttEntry>, ps: seq<Process>)
    requires RunsWithin(g, |ps|)
    requires forall i :: 0 <= i < |ps| ==> RunTime(g, i) == ps[i].burst
    ensures BusyTime(g) == Total(ps, Burst)
  {
    BusyIsTotal(g, ps, Burst);
  }

  function Remaining(p: Process): int { p.remaining }

  /** A process that never appears in the chart has no run time. */
  lemma {:induction false} AbsentRunTime(g: seq<GanttEntry>, i: nat)
    requires i !in Runs(g)
    ensures RunTime(g, i) == 0
    decreases |g|
  {
    if |g| > 0 {
      assert Runs(Front(g)) <= Runs(g);
      AbsentRunTime(Front(g), i);
    }
  }

  /** No entry runs backwards. */
  ghost predicate EntriesNonNegative(g: seq<GanttEntry>) {
    forall e :: 0 <= e < |g| ==> g[e].start <= g[e].end
  }

  lemma FrontNonNegative(g: seq<GanttEntry>)
    requires |g| > 0 && EntriesNonNegative(g)
    ensures EntriesNonNegative(Front(g)) && Last(g).start <= Last(g).end
  {
    assert forall e :: 0 <= e < |Front(g)| ==> Front(g)[e] == g[e];
  }

  /** In a tiled chart whose entries do not run backwards, a process's last
      entry ends no later than the chart does. */
  lemma {:induction false} LastEndWithin(g: seq<GanttEntry>, from: int, to: int, i: nat)
    requires Tiled(g, from, to) && EntriesNonNegative(g) && i in Runs(g)
    ensures LastEnd(g, i) <= to
    decreases |g|
  {
    FrontNonNegative(g);
    if Last(g).slot != Ran(i) {
      LastEndWithin(Front(g), from, Last(g).start, i);
    }
  }

  /** If every entry of process `i` starts at `a` or later, its run time fits
      between `a` and the end of its last entry. */
  lemma {:induction false} RunTimeFits(g: seq<GanttEntry>, from: int, to: int, i: nat, a: int)
    requires Tiled(g, from, to) && EntriesNonNegative(g)
    requires forall e :: 0 <= e < |g| && g[e].slot == Ran(i) ==> a <= g[e].start
    ensures i in Runs(g) ==> RunTime(g, i) <= LastEnd(g, i) - a
    decreases |g|
  {
    if |g| > 0 {
      var f := Front(g);
      FrontNonNegative(g);
      assert forall e :: 0 <= e < |f| ==> f[e] == g[e];
      RunTimeFits(f, from, Last(g).start, i, a);
      if Last(g).slot == Ran(i) {
        if i in Runs(f) {
          LastEndWithin(f, from, Last(g).start, i);
        } else {
          AbsentRunTime(f, i);
        }
      }
    }
  }

  /** The clock, the chart so far, and the idle time accumulated so far. */
  datatype Timeline = Timeline(gantt: seq<GanttEntry>, now: int, idle: int)

  const Start: Timeline := Timeline([], 0, 0)

  /** The chart tiles [0, now) and `idle` is exactly its IDLE time. */
  ghost predicate Consistent(tl: Timeline) {
    Tiled(tl.gantt, 0, tl.now) && tl.idle == IdleTime(tl.gantt)
  }

  /** Append an IDLE entry from the clock up to `t` and move the clock there. */
  function IdleUntil(tl: Timeline, t: int): (r: Timeline)
    ensures r.now == t && r.idle == tl.idle + (t - tl.now)
    ensures Consistent(tl) ==> Consistent(r)
    ensures r.gantt == tl.gantt + [GanttEntry(Idle, tl.now, t)]
    ensures Runs(r.gantt) == Runs(tl.gantt) && BusyTime(r.gantt) == BusyTime(tl.gantt)
    ensures forall i :: RunTime(r.gantt, i) == RunTime(tl.gantt, i)
    ensures forall i :: LastEnd(r.gantt, i) == LastEnd(tl.gantt, i)
  {
    var e := GanttEntry(Idle, tl.now, t);
    FrontOfAppend(tl.gantt, e);
    Timeline(tl.gantt + [e], t, tl.idle + (t - tl.now))
  }

  /** Append an entry for process `i` lasting `d` ticks and advance the clock. */
  function Run(tl: Timeline, i: nat, d: int): (r: Timeline)
    ensures r.now == tl.now + d && r.idle == tl.idle
    ensures Consistent(tl) ==> Consistent(r)
    ensures r.gantt == tl.gantt + [GanttEntry(Ran(i), tl.now, tl.now + d)]
    ensures Runs(r.gantt) == Runs(tl.gantt) + [i] && BusyTime(r.gantt) == BusyTime(tl.gantt) + d
    ensures RunTime(r.gantt, i) == RunTime(tl.gantt, i) + d && LastEnd(r.gantt, i) == r.now
    ensures forall j :: j != i ==> RunTime(r.gantt, j) == RunTime(tl.gantt, j)
    ensures forall j :: j != i ==> LastEnd(r.gantt, j) == LastEnd(tl.gantt, j)
  {
    var e := GanttEntry(Ran(i), tl.now, tl.now + d);
    FrontOfAppend(tl.gantt, e);
    Timeline(tl.gantt + [e], tl.now + d, tl.idle)
  }
}
